=== FILE: README.md ===
# Sundance-Buddy core in Dafny

This project models the decision logic of two small tools in the
Sundance-Buddy repository and proves properties of it.

- **The IBKR price watcher.** `PriceWatcher` decides per symbol whether a
  price tick is worth an alert. The absolute and percent thresholds decide
  significance. A throttle window limits how often a symbol can alert. The
  batch callback `on_pending_tickers` feeds ticks to `on_tick` one after the
  other and logs any tick whose handling raises. The watcher's configuration
  loader merges environment variables over `config.yaml` over built-in
  defaults. The symbol loader turns one JSON record per file into a table
  keyed by upper-case symbol.
- **The EODHD fetcher.** `load_config` validates the JSON configuration: the
  API token, the tickers, the date range, the `data` choices, the `requests`
  conversions and the output format. `_sanitize_filename` cleans ticker
  names for file names. The service moves the `date` column to the front of
  every row.

Modules and files:

| module | file | models |
|---|---|---|
| `Wrappers` | wrappers.dfy | `Option` and `Result` |
| `PyText` | pytext.dfy | Python's `str.strip`, `lower`, `upper`, `int(text)` and `str(int)` on ASCII text, and string `<` |
| `JsonValue` | json.dfy | parsed JSON/YAML values; `dict.get`; truthiness; `str()`, `int()` and `float()` of a value |
| `Watcher` | watcher.dfy | `PriceWatcher`: the threshold gate, the throttle, the label, `on_tick` and the batch callback |
| `WatcherProperties` | watcher_props.dfy | properties across ticks and batches, and a reference statement of the gate |
| `Symbols` | symbols.dfy | `load_symbols` |
| `IbkrConfig` | ibkr_config.dfy | the watcher's `load_config` and `_env_bool` |
| `ConfigLoader` | config_loader.dfy | the fetcher's `load_config` rules |
| `Sanitize` | sanitize.dfy | `_sanitize_filename` |
| `Service` | service.dfy | the column reordering of `fetch_for_ticker` |

Modelling choices:

- A Python dict is an ordered sequence of `(key, value)` pairs, as a JSON
  object is. Lookup finds the first entry with the key.
- The watcher's two dictionaries become an immutable `State`, and each tick
  carries its own clock reading `now`. An exception raised while handling a
  tick becomes a `Failed` outcome, which the batch logs before carrying on.
- Prices, times and thresholds are `real`. A `Reading` is missing, NaN or a
  number.
- Python's `float()` on text is the parameter `floatOfText`, which returns
  `None` where Python raises. The `strptime` date check is the parameter
  `validDate`. A float carries its value and its text; `str()` and `repr()`
  of a float give that text. Everything else (`str()` and `repr()` of
  `None`, booleans, integers, strings and containers, truthiness, `int()` of
  bools, ints, floats and text) is written out.

## Model

| member | source | states |
|---|---|---|
| Watcher.SelectPrice | ibkr_price_watcher/watcher.py:52-57 | a tick has a price exactly when `last` is a number, or `last` is missing and `marketPrice()` is a number; a NaN `last` never falls back |
| Watcher.Thresholds | ibkr_price_watcher/watcher.py:24-27 | a threshold the symbol overrides is `float()` of the override; one it does not override is the configured default, or 0 when there is none; the lookup fails exactly when a present override does not convert |
| Watcher.MovePasses | ibkr_price_watcher/watcher.py:29-36 | the division-based comparisons agree with the division-free `Significant`: the move is at least `minAbs` and, when `minPct` is positive, `prev` is positive and the move is at least `minPct` percent of it |
| Watcher.PassesThresholds | ibkr_price_watcher/watcher.py:19-36 | no previous price always passes; a previous price with no symbol record raises `KeyError`; otherwise the result is `Significant` under the converted thresholds, or a fault when a conversion raises |
| Watcher.Throttled | ibkr_price_watcher/watcher.py:38-43 | a non-positive `throttle_seconds` never throttles; otherwise the tick is throttled exactly while less than that many seconds have passed since the last sent time, taken as 0 when there is none |
| Watcher.Label | ibkr_price_watcher/watcher.py:45-47 | a symbol without a record raises; the label is the bare symbol exactly when the nickname is falsy, and otherwise is `str(nickname)` followed by " (SYM)" |
| Watcher.Content | ibkr_price_watcher/watcher.py:67 | the message is the fixed head, the label, the fixed middle, the formatted price and the fixed tail, each pinned at its position, and has exactly their total length |
| Watcher.OnTick | ibkr_price_watcher/watcher.py:51-71 | a tick is discarded exactly when it has no price; it is sent exactly when it passes the thresholds, is not throttled and has a record; a sent tick commits its price and time and is posted exactly when the webhook URL is truthy; it is rejected exactly when the thresholds answer no or the throttle is closed; a threshold lookup that raises fails the tick and leaves the state; an unknown symbol's first tick that passes the throttle is committed and then fails on the label lookup; no other symbol's entry changes; both dictionaries keep the same keys |
| Watcher.RunBatch | ibkr_price_watcher/watcher.py:114-119 | each tick yields at most one alert or one failure; recorded symbols stay recorded; symbols with no tick in the batch keep their entries |
| Watcher.OnPendingTickers | ibkr_price_watcher/watcher.py:114-119 | the loop over the ticks computes the fold `RunBatch` |
| WatcherProperties.ZeroPreviousRejectsUnderPercent | ibkr_price_watcher/watcher.py:30-35 | with a previous price of 0 and a positive percent threshold, every price is rejected |
| WatcherProperties.ZeroThresholdsPassSamePrice | ibkr_price_watcher/watcher.py:29-36 | with both thresholds 0, a repeat of the previous price passes |
| WatcherProperties.ThrottleWindow | ibkr_price_watcher/watcher.py:38-43 | after an alert, a tick for the same symbol inside the throttle window is not sent and changes nothing, however far the price moved |
| WatcherProperties.ThrottleReopens | ibkr_price_watcher/watcher.py:38-65 | once the window has passed, a significant move from the alerted price is sent again and becomes the new baseline |
| WatcherProperties.OnTickLocal | ibkr_price_watcher/watcher.py:51-65 | a tick's outcome and its own symbol's new entry depend only on that symbol's entry in the state |
| WatcherProperties.BatchSplit | ibkr_price_watcher/watcher.py:114-119 | handling `a + b` is handling `a`, then `b` from the state `a` left |
| WatcherProperties.FailingTickIsSkipped | ibkr_price_watcher/watcher.py:114-119 | a tick whose handling raises without touching the state leaves the final state and alerts as if it were absent, and adds its symbol to the failures |
| WatcherProperties.RepeatedRejectionIsInert | ibkr_price_watcher/watcher.py:51-62 | a rejected or priceless tick repeated any number of times leaves the state unchanged and emits nothing |
| WatcherProperties.BatchPerSymbol | ibkr_price_watcher/watcher.py:114-119 | what a batch leaves and emits for one symbol equals what that symbol's ticks alone leave and emit; other symbols' ticks play no part |
| WatcherProperties.StepMatchesGate | ibkr_price_watcher/watcher.py:19-65 | for a known symbol with convertible thresholds a tick never fails, and its new state is the reference gate's |
| WatcherProperties.BatchMatchesReference | ibkr_price_watcher/watcher.py:114-119 | when every symbol is known and configured, no tick fails and the batch's final state is the reference gate applied tick by tick |
| WatcherProperties.TwoTicksBothSent | ibkr_price_watcher/watcher.py:51-71 | two ticks for one symbol with zero thresholds and no throttle are both sent in order, and the later price is kept |
| Symbols.LoadSymbols | ibkr_price_watcher/symbols.py:7-33 | every key is non-empty, stripped and free of lower-case letters |
| Symbols.SymbolOf | ibkr_price_watcher/symbols.py:18 | the key is stripped and holds no lower-case letter |
| Symbols.SetDefault | ibkr_price_watcher/symbols.py:23-25 | the key is present afterwards; a present key leaves the record as it was; an absent one is appended at the end |
| Symbols.Normalize | ibkr_price_watcher/symbols.py:23-25 | the record keeps all its entries in place and gains at most three |
| Symbols.NormalizeDefaults | ibkr_price_watcher/symbols.py:23-25 | `exchange`, `currency` and `secType` read as the record's own value or SMART, USD and STK; every other key reads as before |
| Symbols.Entry | ibkr_price_watcher/symbols.py:16-26 | a file contributes exactly when it holds an object whose symbol is non-empty, and then contributes that symbol and the normalised record |
| Symbols.LoadSymbolsKeys | ibkr_price_watcher/symbols.py:14-28 | a symbol is a key exactly when some file contributes it |
| Symbols.LoadSymbolsNoEmptyKey | ibkr_price_watcher/symbols.py:19-21 | the empty symbol is never a key |
| Symbols.LoadSymbolsLastWins | ibkr_price_watcher/symbols.py:26 | a symbol named by several files holds the normalised record of the last of them |
| Symbols.LoadSymbolsKeyShape | ibkr_price_watcher/symbols.py:18 | every key is non-empty and is its own stripped upper-case form |
| IbkrConfig.EnvBool | ibkr_price_watcher/config.py:24-28 | an unset variable gives the default unchanged; a set one gives a boolean that is true exactly for the words 1, true, yes, y, on after stripping and lower-casing |
| IbkrConfig.EnvBoolForgiving | ibkr_price_watcher/config.py:28 | surrounding whitespace and upper case do not change the reading |
| IbkrConfig.EnvBoolNumerals | ibkr_price_watcher/config.py:28 | a digit string other than "1" reads as false |
| IbkrConfig.FileMapping | ibkr_price_watcher/config.py:35-41 | a missing or falsy document is an empty mapping; a truthy document that is not a mapping fails |
| IbkrConfig.SectionOf | ibkr_price_watcher/config.py:41-43 | a missing section is empty; a present one fails exactly when it is not a mapping |
| IbkrConfig.IbPart | ibkr_price_watcher/config.py:46-51 | a malformed `ib` section fails the load whatever the variables say |
| IbkrConfig.LimitsPart | ibkr_price_watcher/config.py:55-58 | a successful part had a mapping `defaults` section; once the throttle converts, a malformed `defaults` section is the error; every error names the throttle, that section or one of the two thresholds |
| IbkrConfig.IbSettings | ibkr_price_watcher/config.py:47-50 | each `ib` setting comes from its variable when set, else the file, else its default, with `int()` applied to port and client id and `_env_bool` to the delayed flag |
| IbkrConfig.LimitSettings | ibkr_price_watcher/config.py:55-58 | the throttle and both thresholds come from their variable when set, else the file, else their default, through `float()` |
| IbkrConfig.SettingPrecedence | ibkr_price_watcher/config.py:45-64 | in any environment, each of the nine settings comes from its variable when that is set, else from the file, else from its built-in default |
| IbkrConfig.LoadConfigSucceeds | ibkr_price_watcher/config.py:30-65 | the load succeeds exactly when the document and its `ib`, `discord` and `defaults` sections are mappings, `int()` reads the layered port and client id, and `float()` reads the layered throttle and both thresholds |
| IbkrConfig.UnreadablePortFails | ibkr_price_watcher/config.py:48 | an `IB_PORT` that `int()` cannot read fails the load once the file and its `ib` section are usable |
| IbkrConfig.LoadConfig | ibkr_price_watcher/config.py:30-65 | a successful load came from a mapping document, and the symbols directory is `SYMBOLS_DIR` when set, else the project's `symbols` directory |
| IbkrConfig.LoadConfigBuiltIn | ibkr_price_watcher/config.py:45-64 | with no variables and no file, every setting is its built-in default: 127.0.0.1, port 7497, client 1001, no delayed data, no webhook, a 2 s throttle, zero thresholds |
| IbkrConfig.EnvironmentWins | ibkr_price_watcher/config.py:45-64 | with every variable set, a file that loads at all changes no setting |
| IbkrConfig.FileOverridesDefaults | ibkr_price_watcher/config.py:45-64 | with no variables, each of host, port, client id, delayed flag, webhook URL, throttle and both thresholds is the file's value (converted by `int()`/`float()`) when present and its default otherwise; the symbols directory is the project's |
| IbkrConfig.MalformedSectionFails | ibkr_price_watcher/config.py:41-47 | `ib: 5` in the file fails the load even when the variables set every `ib` setting |
| IbkrConfig.BuiltInWatcher | ibkr_price_watcher/config.py:55 | under the built-in configuration the watcher throttles each symbol for 2 s and posts to no webhook |
| ConfigLoader.Section | eodhd_fetcher/utils/config_loader.py:87 | a missing section, an empty string or an empty list adds nothing; an object is laid over the defaults; anything else raises, naming the section |
| ConfigLoader.Adjusted | eodhd_fetcher/utils/config_loader.py:96-104 | an absent or null `adjusted` gives no adjustment; otherwise it is refused exactly when `int()` raises or gives something other than 0 or 1, and an accepted value is `int()` of the given one |
| ConfigLoader.TickerRule | eodhd_fetcher/utils/config_loader.py:76-78 | accepted exactly when `tickers` is a non-empty list; each ticker becomes `str(t).strip()`, in order |
| ConfigLoader.DateRule | eodhd_fetcher/utils/config_loader.py:80-83 | accepted exactly when both dates are valid and `from` is not after `to` as strings; the dates are kept as given |
| ConfigLoader.DataRule | eodhd_fetcher/utils/config_loader.py:85-104 | accepted exactly when the lower-cased period is d, w or m, the order is a or d, and `adjusted` passes; the accepted choices are the section's lower-cased period and order and its `adjusted` value |
| ConfigLoader.FormatRule | eodhd_fetcher/utils/config_loader.py:110-124 | accepted exactly when the lower-cased format is csv, parquet or json, and the accepted format is that lower-cased text |
| ConfigLoader.RequestRule | eodhd_fetcher/utils/config_loader.py:134-136 | succeeds exactly when `timeout` and `max_retries` convert with `int()` and `backoff_base` with `float()`, and then gives those three converted values; a failure is not a `ConfigError` |
| ConfigLoader.SectionRules | eodhd_fetcher/utils/config_loader.py:85-136 | succeeds exactly when all three sections are usable and the data, format and request rules pass; an unusable `data` section fails naming it, and so do `requests` and `output` once the checks before them pass; an accepted result is the three rules' values on the laid-over sections |
| ConfigLoader.LoadConfig | eodhd_fetcher/utils/config_loader.py:70-143 | an accepted configuration has a non-empty token, a non-empty list of stripped tickers, valid ordered dates, and the section's lower-cased period, order and format, its `adjusted` value and its converted request settings; a missing or empty token is a `ConfigError` |
| ConfigLoader.LoadConfigAccepts | eodhd_fetcher/utils/config_loader.py:70-143 | the loader succeeds exactly on configurations meeting every rule at once, whatever the order of the checks, and then keeps the token, the dates, the stripped tickers, the lower-cased choices and format and the converted request settings |
| ConfigLoader.EmptySectionDefaults | eodhd_fetcher/utils/config_loader.py:86-124 | empty sections give daily, ascending, unadjusted data and CSV output |
| ConfigLoader.LoadConfigDefaults | eodhd_fetcher/utils/config_loader.py:86-136 | with no `data`, `requests` or `output` section the settings are daily, ascending, unadjusted, a 30 s timeout, 5 retries, a 0.8 backoff base and CSV |
| ConfigLoader.DatesOutOfOrderRefused | eodhd_fetcher/utils/config_loader.py:82-83 | a `to` that sorts before `from` is refused |
| ConfigLoader.UnpaddedMonthRefused | eodhd_fetcher/utils/config_loader.py:80-83 | "2024-2-01" to "2024-10-01" is refused as out of order, although both are dates `strptime` accepts and February comes first |
| ConfigLoader.DateErrorDecides | eodhd_fetcher/utils/config_loader.py:71-83 | once the token and the tickers pass, a failing date rule is the loader's error |
| ConfigLoader.AdjustedKinds | eodhd_fetcher/utils/config_loader.py:96-104 | a boolean `adjusted` reads as 0 or 1; an integer passes only as 0 or 1; a float passes exactly when strictly between -1 and 2 (truncation); lists and objects are refused |
| ConfigLoader.AdjustedText | eodhd_fetcher/utils/config_loader.py:96-104 | a whitespace-padded decimal numeral passes exactly when its value is 0 or 1 |
| Sanitize.SanitizeFilename | eodhd_fetcher/utils/config_loader.py:49-51 | the result is never longer than the input |
| Sanitize.RunBecomesOneUnderscore | eodhd_fetcher/utils/config_loader.py:51 | a maximal run of disallowed characters becomes exactly one underscore |
| Sanitize.SanitizeConcat | eodhd_fetcher/utils/config_loader.py:51 | sanitising works piecewise across any cut that does not split a run of disallowed characters |
| Sanitize.SanitizeClean | eodhd_fetcher/utils/config_loader.py:51 | the result holds only letters, digits, `.`, `_` and `-` |
| Sanitize.SanitizeKeepsClean | eodhd_fetcher/utils/config_loader.py:51 | a name made only of allowed characters is unchanged |
| Sanitize.SanitizeIdempotent | eodhd_fetcher/utils/config_loader.py:49-51 | sanitising twice is sanitising once |
| Service.WithoutDate | eodhd_fetcher/eodhd/service.py:27 | the other keys are exactly the keys other than `date`; a single key is dropped exactly when it is `date`; keys without `date` are unchanged |
| Service.WithoutDateAppend | eodhd_fetcher/eodhd/service.py:27 | the filter works piece by piece (filtering `a + b` is filtering `a` then `b`), which with the one-key case fixes the order of the kept keys |
| Service.DateFirstMovesDate | eodhd_fetcher/eodhd/service.py:26-27 | for keys `a`, `date`, `b` with no other `date`, the new order is `date`, then `a`, then `b`, each in its old order |
| Service.DateFirst | eodhd_fetcher/eodhd/service.py:26-27 | `date`, when present, comes first and is followed by `WithoutDate` of the keys; without `date` the keys are unchanged; no key is gained or lost |
| Service.Project | eodhd_fetcher/eodhd/service.py:28 | the new row has exactly the given keys, each with the old row's value or null |
| Service.Reshape | eodhd_fetcher/eodhd/service.py:24-29 | no rows stay no rows; every row gets the first row's keys in `DateFirst` order, each holding the row's own value or null |
| Service.WithoutDateCount | eodhd_fetcher/eodhd/service.py:27 | removing `date` loses exactly its occurrences |
| Service.DateFirstPermutes | eodhd_fetcher/eodhd/service.py:25-27 | for distinct keys the new order is a permutation of the old |
| Service.DateFirstKeepsRelativeOrder | eodhd_fetcher/eodhd/service.py:27 | removing `date` from the new order gives the same sequence as removing it from the old one |
| Service.ReshapeIdempotent | eodhd_fetcher/eodhd/service.py:24-29 | reshaping twice is reshaping once |

## Behaviour worth knowing

- A tick for a symbol without a record is not simply ignored. On its first
  tick there is no previous price, so it passes the thresholds and is
  committed. Then the label lookup raises `KeyError` and the batch logs it.
  Each later tick raises in the threshold lookup. The model has this as
  `Failed(UnknownSymbol)`, with the first tick's commit (`Watcher.OnTick`).
- With both thresholds 0, a repeat of the previous price still passes,
  because `abs_change < 0` is false
  (`WatcherProperties.ZeroThresholdsPassSamePrice`).
- With a previous price of 0, the percent change is 0, so any positive
  percent threshold rejects every later tick
  (`WatcherProperties.ZeroPreviousRejectsUnderPercent`).
- The first tick of a symbol is throttled only while the clock reads less
  than `throttle_seconds`, because the missing last time counts as 0.
- Only NaN is caught as "not a number", and a NaN `last` is discarded
  without falling back to `marketPrice()`.
- `_env_bool` returns the file's value unconverted when the variable is
  unset, so `useDelayed: "false"` in the file stays a truthy string.
- `os.getenv`'s fallback is evaluated first, so a malformed `ib`,
  `discord` or `defaults` section fails the load even when every variable is
  set (`IbkrConfig.MalformedSectionFails`).
- The fetcher compares the dates as strings. `strptime` accepts unpadded
  months and days, so some valid, ordered ranges are refused
  (`ConfigLoader.UnpaddedMonthRefused`).
- The `requests` conversions run after validation and raise `ValueError`
  or `TypeError` rather than `ConfigError`.

## Left out

- Connecting to IB, qualifying contracts, subscribing to market data,
  `run_async` and the command-line entry points: these are I/O with no
  decision logic beyond what is modelled.
- The Discord POST (`post_discord`) and the console printing. An alert
  records whether it would be posted.
- `on_tick` reads `time.time()` twice, in the throttle check and in the
  commit. The model uses one clock reading per tick.
- Watcher.Content: the price is rendered by the parameter `fmt4`; Python's
  `:.4f` formatting is not modelled.
- Sanitize.SanitizeFilename: its own contract states only the length bound.
  What the substitution means is stated by the lemmas beside it
  (`SanitizeClean`, `SanitizeKeepsClean`, `RunBecomesOneUnderscore`,
  `SanitizeConcat`), because a quantified contract on the recursive function
  made every proof that unfolds it much more expensive.
- Symbols.Normalize: its own contract states only that the record is
  extended at the end. The values it reads as are stated by
  `Symbols.NormalizeDefaults`.
- Python's `float()` on text and the `strptime` date check are parameters,
  not modelled parsers.
- NaN and infinity outside tick prices. A `Reading` is missing, NaN or a
  finite number, so infinite prices are not represented. `floatOfText` and
  float values yield only finite reals, so a NaN or infinite threshold or
  throttle is not represented either. In Python a NaN `min_change_abs`
  passes every move and a NaN throttle never throttles.
- Float text: `str()` of a float is the text stored with it, which nothing
  ties to its value. Python's shortest round-trip float printing is not
  modelled.
- Case mapping and whitespace are ASCII only. Python's Unicode `upper()`,
  `lower()` and `strip()` are not modelled.
- `repr` of strings is written without Python's escaping of quotes and
  control characters.
- Reading and parsing files (JSON, YAML), loading `.env` files, globbing the
  symbols directory and creating it. The model starts from the parsed values
  in visit order.
- A top-level fetcher configuration that is not a JSON object is out of
  scope. So is a `data`, `requests` or `output` section given as a non-empty
  list of pairs, which `dict.update` would accept. The model refuses it,
  while empty strings and empty lists are accepted as adding nothing.
- Dicts with repeated keys: parsed documents hold each key once, and the
  model reads the first entry for a key.
- The output settings other than `format` (`directory`, `per_ticker`, the
  filename templates, `include_ticker_column_in_combined`): their
  conversions cannot fail and nothing is decided on them.
- `filename_from_template`, the EODHD HTTP client, its retries and backoff,
  and the file writers.

=== FILE: config_loader.dfy ===
/** The validation rules of the EODHD fetcher's `load_config`, applied to a
    configuration that has already been read and parsed as a JSON object. The
    API token comes from the environment and is passed in; whether a string
    is a real `YYYY-MM-DD` date (`strptime`) is the predicate `validDate`. */
module ConfigLoader {
  import opened Wrappers
  import opened PyText
  import opened JsonValue

  /** `ConfigError` carries the message the loader raises; `Raised` stands for
      the `TypeError`/`ValueError` that `dict.update` raises when a section is
      not an object, and `Unconverted` for the one `int()` or `float()` raises
      on a `requests` setting; neither of those is a `ConfigError`. */
  datatype Error = ConfigError(message: string) | Raised(section: string) | Unconverted(setting: string)

  /** The validated settings of `AppConfig` that the rules produce. */
  datatype Settings = Settings(
    apiToken: string,
    tickers: seq<string>,
    dateFrom: string,
    dateTo: string,
    period: string,
    order: string,
    adjusted: Option<int>,
    timeout: int,
    maxRetries: int,
    backoffBase: real,
    outFormat: string)

  const Periods: set<string> := {"d", "w", "m"}
  const Orders: set<string> := {"a", "d"}
  const Formats: set<string> := {"csv", "parquet", "json"}

  /** True for the values `dict.update` accepts as adding nothing: an empty
      string and an empty list are empty iterables. */
  predicate EmptyIterable(v: Json) {
    v == JStr("") || v == JList([])
  }

  /** `cfg.get(name, {})` as the argument of `dict.update`: an object is laid
      over the defaults, an empty string or list adds nothing, and anything
      else raises. */
  function Section(cfg: Dict, name: string): (r: Result<Dict, Error>)
    ensures r.Ok? <==> !HasKey(cfg, name) || Get(cfg, name).value.JObject? || EmptyIterable(Get(cfg, name).value)
    ensures !HasKey(cfg, name) || EmptyIterable(Get(cfg, name).value) ==> r == Ok([])
    ensures HasKey(cfg, name) && Get(cfg, name).value.JObject? ==> r == Ok(Get(cfg, name).value.entries)
    ensures r.Err? ==> r.error == Raised(name)
  {
    match Get(cfg, name)
    case None => Ok([])
    case Some(JObject(entries)) => Ok(entries)
    case Some(v) => if EmptyIterable(v) then Ok([]) else Err(Raised(name))
  }

  /** The text a choice setting is checked as: `str(value).lower()`, where the
      value is the section's entry, or `dflt` when the section has none. */
  function ChoiceText(section: Dict, key: string, dflt: string): string {
    Lower(PyStr(GetOr(section, key, JStr(dflt))))
  }

  /** `str(cfg.get(key))`, the text handed to the date check. */
  function DateText(cfg: Dict, key: string): string {
    PyStr(GetOr(cfg, key, JNull))
  }

  /** The `adjusted` rule: absent or `null` gives `None`; otherwise `int()`
      must succeed and give 0 or 1. */
  function Adjusted(data: Dict): (r: Option<Option<int>>)
    ensures r.Some? && r.value.Some? ==> r.value.value == 0 || r.value.value == 1
    ensures GetOr(data, "adjusted", JNull) == JNull ==> r == Some(None)
    ensures GetOr(data, "adjusted", JNull) != JNull && r.Some? ==> r.value == PyInt(GetOr(data, "adjusted", JNull))
    ensures r.None? <==> (GetOr(data, "adjusted", JNull) != JNull &&
      (PyInt(GetOr(data, "adjusted", JNull)).None? || PyInt(GetOr(data, "adjusted", JNull)).value !in {0, 1}))
  {
    var raw := GetOr(data, "adjusted", JNull);
    if raw == JNull then Some(None)
    else
      match PyInt(raw)
      case Some(v) => if v == 0 || v == 1 then Some(Some(v)) else None
      case None => None
  }

  /** The rule on `tickers`: a non-empty list, each entry kept as `str(t).strip()`. */
  function TickerRule(cfg: Dict): (r: Result<seq<string>, Error>)
    ensures r.Ok? <==> HasKey(cfg, "tickers") && Get(cfg, "tickers").value.JList? && Get(cfg, "tickers").value.items != []
    ensures r.Err? ==> r.error.ConfigError?
    ensures r.Ok? ==> |r.value| == |Get(cfg, "tickers").value.items| > 0
    ensures r.Ok? ==> forall i :: 0 <= i < |r.value| ==> r.value[i] == Strip(PyStr(Get(cfg, "tickers").value.items[i]))
  {
    var raw := Get(cfg, "tickers");
    if raw.Some? && raw.value.JList? && raw.value.items != [] then
      var items := raw.value.items;
      Ok(seq(|items|, i requires 0 <= i < |items| => Strip(PyStr(items[i]))))
    else Err(ConfigError("'tickers' must be a non-empty list of strings."))
  }

  /** The rules on `from` and `to`: both valid dates, and `from` not after `to`
      when compared as strings. */
  function DateRule(cfg: Dict, validDate: string -> bool): (r: Result<(string, string), Error>)
    ensures r.Ok? <==> validDate(DateText(cfg, "from")) && validDate(DateText(cfg, "to")) && !LexLess(DateText(cfg, "to"), DateText(cfg, "from"))
    ensures r.Ok? ==> r.value == (DateText(cfg, "from"), DateText(cfg, "to"))
    ensures r.Err? ==> r.error.ConfigError?
  {
    var fdate := DateText(cfg, "from");
    var tdate := DateText(cfg, "to");
    if !validDate(fdate) then Err(ConfigError("Invalid date: " + fdate + ". Use YYYY-MM-DD."))
    else if !validDate(tdate) then Err(ConfigError("Invalid date: " + tdate + ". Use YYYY-MM-DD."))
    else if LexLess(tdate, fdate) then Err(ConfigError("'from' must be <= 'to'."))
    else Ok((fdate, tdate))
  }

  /** Period, order and adjustment as the `data` section sets them. */
  datatype DataChoices = DataChoices(period: string, order: string, adjusted: Option<int>)

  /** The rules on the `data` section, after it has been laid over the
      defaults `period = "d"`, `order = "a"`, `adjusted = None`. */
  function DataRule(data: Dict): (r: Result<DataChoices, Error>)
    ensures r.Ok? <==>
      && ChoiceText(data, "period", "d") in Periods
      && ChoiceText(data, "order", "a") in Orders
      && Adjusted(data).Some?
    ensures r.Ok? ==> r.value.period in Periods && r.value.order in Orders
    ensures r.Ok? ==> r.value.adjusted in {None, Some(0), Some(1)}
    ensures r.Ok? ==> r.value == DataChoices(ChoiceText(data, "period", "d"), ChoiceText(data, "order", "a"), Adjusted(data).value)
    ensures r.Err? ==> r.error.ConfigError?
  {
    var period := ChoiceText(data, "period", "d");
    var order := ChoiceText(data, "order", "a");
    if period !in Periods then Err(ConfigError("data.period must be one of: d, w, m"))
    else if order !in Orders then Err(ConfigError("data.order must be one of: a, d"))
    else
      match Adjusted(data)
      case None => Err(ConfigError("data.adjusted must be 0 or 1 if provided"))
      case Some(adjusted) => Ok(DataChoices(period, order, adjusted))
  }

  /** The rule on the output format, after the `output` section has been laid
      over the default `format = "csv"`. */
  function FormatRule(output: Dict): (r: Result<string, Error>)
    ensures r.Ok? <==> ChoiceText(output, "format", "csv") in Formats
    ensures r.Ok? ==> r.value in Formats
    ensures r.Ok? ==> r.value == ChoiceText(output, "format", "csv")
    ensures r.Err? ==> r.error.ConfigError?
  {
    var outFormat := ChoiceText(output, "format", "csv");
    if outFormat in Formats then Ok(outFormat)
    else Err(ConfigError("output.format must be csv, parquet, or json"))
  }

  /** The conversions of the `requests` settings, laid over the defaults
      `timeout = 30`, `max_retries = 5`, `backoff_base = 0.8`; they run last,
      when the settings object is built. */
  function RequestRule(req: Dict, floatOfText: string -> Option<real>): (r: Result<(int, int, real), Error>)
    ensures r.Ok? <==>
      && PyInt(GetOr(req, "timeout", JInt(30))).Some?
      && PyInt(GetOr(req, "max_retries", JInt(5))).Some?
      && PyFloat(GetOr(req, "backoff_base", JFloat(0.8, "0.8")), floatOfText).Some?
    ensures r.Ok? ==> (r.value ==
      (PyInt(GetOr(req, "timeout", JInt(30))).value, PyInt(GetOr(req, "max_retries", JInt(5))).value,
       PyFloat(GetOr(req, "backoff_base", JFloat(0.8, "0.8")), floatOfText).value))
    ensures r.Err? ==> r.error.Unconverted?
  {
    match PyInt(GetOr(req, "timeout", JInt(30)))
    case None => Err(Unconverted("timeout"))
    case Some(timeout) =>
      match PyInt(GetOr(req, "max_retries", JInt(5)))
      case None => Err(Unconverted("max_retries"))
      case Some(retries) =>
        match PyFloat(GetOr(req, "backoff_base", JFloat(0.8, "0.8")), floatOfText)
        case None => Err(Unconverted("backoff_base"))
        case Some(backoff) => Ok((timeout, retries, backoff))
  }

  /** The section checks after the dates: `data` is laid over its defaults
      and checked, `requests` must be an object, and `output` is laid over its
      default and checked. */
  function SectionRules(cfg: Dict, floatOfText: string -> Option<real>): (r: Result<(DataChoices, string, (int, int, real)), Error>)
    ensures r.Ok? ==>
      && r.value.0.period in Periods && r.value.0.order in Orders
      && r.value.0.adjusted in {None, Some(0), Some(1)}
      && r.value.1 in Formats
    ensures r.Ok? <==>
      && Section(cfg, "data").Ok? && DataRule(Section(cfg, "data").value).Ok?
      && Section(cfg, "requests").Ok? && Section(cfg, "output").Ok?
      && FormatRule(Section(cfg, "output").value).Ok?
      && RequestRule(Section(cfg, "requests").value, floatOfText).Ok?
    ensures r.Ok? ==> (r.value ==
      (DataRule(Section(cfg, "data").value).value, FormatRule(Section(cfg, "output").value).value,
       RequestRule(Section(cfg, "requests").value, floatOfText).value))
    ensures Section(cfg, "data").Err? ==> r == Err(Raised("data"))
    ensures Section(cfg, "data").Ok? && DataRule(Section(cfg, "data").value).Ok? && Section(cfg, "requests").Err? ==>
      r == Err(Raised("requests"))
    ensures (Section(cfg, "data").Ok? && DataRule(Section(cfg, "data").value).Ok? && Section(cfg, "requests").Ok? &&
      Section(cfg, "output").Err?) ==> r == Err(Raised("output"))
    ensures r.Err? && r.error.Raised? ==> r.error.section in {"data", "requests", "output"}
  {
    match Section(cfg, "data")
    case Err(e) => Err(e)
    case Ok(data) =>
      match DataRule(data)
      case Err(e) => Err(e)
      case Ok(choices) =>
        match Section(cfg, "requests")
        case Err(e) => Err(e)
        case Ok(req) =>
          match Section(cfg, "output")
          case Err(e) => Err(e)
          case Ok(output) =>
            match FormatRule(output)
            case Err(e) => Err(e)
            case Ok(outFormat) =>
              match RequestRule(req, floatOfText)
              case Err(e) => Err(e)
              case Ok(requests) => Ok((choices, outFormat, requests))
  }

  /** `load_config` from the point where the JSON has been parsed: the checks
      run in the source's order and the first one that fails decides the
      error. */
  function LoadConfig(cfg: Dict, apiToken: Option<string>, validDate: string -> bool, floatOfText: string -> Option<real>): (r: Result<Settings, Error>)
    ensures r.Ok? ==>
      && r.value.apiToken != ""
      && |r.value.tickers| > 0
      && validDate(r.value.dateFrom) && validDate(r.value.dateTo)
      && !LexLess(r.value.dateTo, r.value.dateFrom)
      && r.value.period in Periods
      && r.value.order in Orders
      && r.value.adjusted in {None, Some(0), Some(1)}
      && r.value.outFormat in Formats
    ensures r.Ok? ==> forall i :: 0 <= i < |r.value.tickers| ==> Trimmed(r.value.tickers[i])
    ensures r.Ok? ==>
      && Section(cfg, "data").Ok? && Section(cfg, "output").Ok? && Section(cfg, "requests").Ok?
      && r.value.period == ChoiceText(Section(cfg, "data").value, "period", "d")
      && r.value.order == ChoiceText(Section(cfg, "data").value, "order", "a")
      && Adjusted(Section(cfg, "data").value).Some?
      && r.value.adjusted == Adjusted(Section(cfg, "data").value).value
      && r.value.outFormat == ChoiceText(Section(cfg, "output").value, "format", "csv")
      && Some(r.value.timeout) == PyInt(GetOr(Section(cfg, "requests").value, "timeout", JInt(30)))
      && Some(r.value.maxRetries) == PyInt(GetOr(Section(cfg, "requests").value, "max_retries", JInt(5)))
      && Some(r.value.backoffBase) == PyFloat(GetOr(Section(cfg, "requests").value, "backoff_base", JFloat(0.8, "0.8")), floatOfText)
    ensures apiToken.None? || apiToken == Some("") ==> r.Err? && r.error.ConfigError?
    ensures r.Err? && r.error.Raised? ==> r.error.section in {"data", "requests", "output"}
  {
    if apiToken.None? || apiToken.value == "" then
      Err(ConfigError("EODHD_API_TOKEN is missing. Add it to your .env or environment."))
    else
      match TickerRule(cfg)
      case Err(e) => Err(e)
      case Ok(tickers) =>
        match DateRule(cfg, validDate)
        case Err(e) => Err(e)
        case Ok((fdate, tdate)) =>
          match SectionRules(cfg, floatOfText)
          case Err(e) => Err(e)
          case Ok((choices, outFormat, requests)) =>
            Ok(Settings(apiToken.value, tickers, fdate, tdate, choices.period, choices.order, choices.adjusted,
                        requests.0, requests.1, requests.2, outFormat))
  }

  /** The loader's rules stated as one condition on the parsed configuration,
      independent of the order in which they are checked. */
  predicate Acceptable(cfg: Dict, apiToken: Option<string>, validDate: string -> bool, floatOfText: string -> Option<real>) {
    && apiToken.Some? && apiToken.value != ""
    && HasKey(cfg, "tickers") && Get(cfg, "tickers").value.JList? && Get(cfg, "tickers").value.items != []
    && validDate(DateText(cfg, "from")) && validDate(DateText(cfg, "to"))
    && !LexLess(DateText(cfg, "to"), DateText(cfg, "from"))
    && Section(cfg, "data").Ok? && Section(cfg, "requests").Ok? && Section(cfg, "output").Ok?
    && ChoiceText(Section(cfg, "data").value, "period", "d") in Periods
    && ChoiceText(Section(cfg, "data").value, "order", "a") in Orders
    && Adjusted(Section(cfg, "data").value).Some?
    && ChoiceText(Section(cfg, "output").value, "format", "csv") in Formats
    && RequestRule(Section(cfg, "requests").value, floatOfText).Ok?
  }

  /** The loader succeeds exactly on acceptable configurations, and then
      keeps the dates as given and every ticker as `str(t).strip()`. */
  lemma LoadConfigAccepts(cfg: Dict, apiToken: Option<string>, validDate: string -> bool, floatOfText: string -> Option<real>)
    ensures LoadConfig(cfg, apiToken, validDate, floatOfText).Ok? <==> Acceptable(cfg, apiToken, validDate, floatOfText)
    ensures LoadConfig(cfg, apiToken, validDate, floatOfText).Ok? ==>
      var s := LoadConfig(cfg, apiToken, validDate, floatOfText).value;
      var items := Get(cfg, "tickers").value.items;
      && s.dateFrom == DateText(cfg, "from") && s.dateTo == DateText(cfg, "to")
      && |s.tickers| == |items|
      && (forall i :: 0 <= i < |items| ==> s.tickers[i] == Strip(PyStr(items[i])))
    ensures LoadConfig(cfg, apiToken, validDate, floatOfText).Ok? ==>
      var s := LoadConfig(cfg, apiToken, validDate, floatOfText).value;
      var data := Section(cfg, "data").value;
      var output := Section(cfg, "output").value;
      var req := Section(cfg, "requests").value;
      && s.apiToken == apiToken.value
      && s.period == ChoiceText(data, "period", "d")
      && s.order == ChoiceText(data, "order", "a")
      && s.adjusted == Adjusted(data).value
      && s.outFormat == ChoiceText(output, "format", "csv")
      && Some(s.timeout) == PyInt(GetOr(req, "timeout", JInt(30)))
      && Some(s.maxRetries) == PyInt(GetOr(req, "max_retries", JInt(5)))
      && Some(s.backoffBase) == PyFloat(GetOr(req, "backoff_base", JFloat(0.8, "0.8")), floatOfText)
  {
  }

  /** Text without upper-case letters is its own lower-case form. */
  lemma LowerKeeps(s: string)
    requires forall i :: 0 <= i < |s| ==> !IsUpperAscii(s[i])
    ensures Lower(s) == s
  {
  }

  /** Empty sections leave the defaults: daily period, ascending order, no
      adjustment, CSV output. */
  lemma EmptySectionDefaults()
    ensures DataRule([]) == Ok(DataChoices("d", "a", None))
    ensures FormatRule([]) == Ok("csv")
  {
    var empty: Dict := [];
    LowerKeeps("d");
    LowerKeeps("a");
    LowerKeeps("csv");
    assert ChoiceText(empty, "period", "d") == "d";
    assert ChoiceText(empty, "order", "a") == "a";
    assert ChoiceText(empty, "format", "csv") == "csv";
    assert Adjusted(empty) == Some(None);
  }

  /** A configuration without `data`, `requests` and `output` sections that
      loads gets the default choices: daily, ascending, unadjusted, a 30 s
      timeout, 5 retries, a 0.8 s backoff base and CSV output. */
  lemma LoadConfigDefaults(cfg: Dict, apiToken: Option<string>, validDate: string -> bool, floatOfText: string -> Option<real>)
    requires !HasKey(cfg, "data") && !HasKey(cfg, "requests") && !HasKey(cfg, "output")
    requires LoadConfig(cfg, apiToken, validDate, floatOfText).Ok?
    ensures var s := LoadConfig(cfg, apiToken, validDate, floatOfText).value;
      && s.period == "d" && s.order == "a" && s.adjusted == None && s.outFormat == "csv"
      && s.timeout == 30 && s.maxRetries == 5 && s.backoffBase == 0.8
  {
    EmptySectionDefaults();
    var empty: Dict := [];
    assert Section(cfg, "data") == Ok(empty);
    assert Section(cfg, "requests") == Ok(empty);
    assert Section(cfg, "output") == Ok(empty);
    assert RequestRule(empty, floatOfText) == Ok((30, 5, 0.8));
  }

  /** A `from` date after the `to` date, compared as strings, is refused. */
  lemma DatesOutOfOrderRefused(cfg: Dict, apiToken: Option<string>, validDate: string -> bool, floatOfText: string -> Option<real>)
    requires LexLess(DateText(cfg, "to"), DateText(cfg, "from"))
    ensures LoadConfig(cfg, apiToken, validDate, floatOfText).Err?
  {
  }

  /** The dates are compared as text, not as dates. `strptime` accepts a
      month without its leading zero, so a February `from` and an October
      `to` of the same year, written "2024-2-01" and "2024-10-01", are both
      valid dates in order and are still refused as out of order. */
  lemma UnpaddedMonthRefused(cfg: Dict, apiToken: Option<string>, validDate: string -> bool, floatOfText: string -> Option<real>)
    requires apiToken.Some? && apiToken.value != "" && TickerRule(cfg).Ok?
    requires DateText(cfg, "from") == "2024-2-01" && DateText(cfg, "to") == "2024-10-01"
    requires validDate("2024-2-01") && validDate("2024-10-01")
    ensures LoadConfig(cfg, apiToken, validDate, floatOfText) == Err(ConfigError("'from' must be <= 'to'."))
  {
    UnpaddedMonthLess();
    DateErrorDecides(cfg, apiToken, validDate, floatOfText);
  }

  lemma UnpaddedMonthLess()
    ensures LexLess("2024-10-01", "2024-2-01")
  {
    var f: string := "2024-2-01";
    var t: string := "2024-10-01";
    assert t[..5] == f[..5] && t[5] == '1' && f[5] == '2';
    CommonPrefixLess(t, f, 5);
  }

  /** Once the token and the tickers pass, a failing date rule is the error. */
  lemma DateErrorDecides(cfg: Dict, apiToken: Option<string>, validDate: string -> bool, floatOfText: string -> Option<real>)
    requires apiToken.Some? && apiToken.value != "" && TickerRule(cfg).Ok?
    requires DateRule(cfg, validDate).Err?
    ensures LoadConfig(cfg, apiToken, validDate, floatOfText) == Err(DateRule(cfg, validDate).error)
  {
  }

  /** Text that agrees with other text up to `n` and is smaller at `n`
      compares smaller. */
  lemma {:induction false} CommonPrefixLess(a: string, b: string, n: nat)
    requires n < |a| && n < |b| && a[..n] == b[..n] && a[n] < b[n]
    ensures LexLess(a, b)
    decreases n
  {
    if n > 0 {
      assert a[0] == a[..n][0] == b[..n][0] == b[0];
      assert a[1..][..n - 1] == a[..n][1..] == b[..n][1..] == b[1..][..n - 1];
      CommonPrefixLess(a[1..], b[1..], n - 1);
    }
  }

  /** What `int()` makes of `adjusted` by kind: a boolean is 0 or 1, an
      integer must itself be 0 or 1, a float is truncated toward zero so
      anything strictly between -1 and 2 passes, and lists and objects are
      refused. */
  lemma AdjustedKinds(v: Json)
    requires v != JNull
    ensures v.JBool? ==> Adjusted([("adjusted", v)]) == Some(Some(if v.b then 1 else 0))
    ensures v.JInt? ==> Adjusted([("adjusted", v)]) == (if v.i == 0 || v.i == 1 then Some(Some(v.i)) else None)
    ensures v.JFloat? ==> (Adjusted([("adjusted", v)]).Some? <==> -1.0 < v.v < 2.0)
    ensures v.JList? || v.JObject? ==> Adjusted([("adjusted", v)]) == None
  {
    AdjustedOf(v);
  }

  /** A decimal numeral with whitespace around it is read as its value, so
      `" 1 "` is accepted as 1 and `" 2 "` refused. */
  lemma AdjustedText(c: char, i: int, d: char)
    requires IsSpace(c) && IsSpace(d)
    ensures Adjusted([("adjusted", JStr([c] + IntToDecimal(i) + [d]))]) == (if i == 0 || i == 1 then Some(Some(i)) else None)
  {
    var v := [c] + IntToDecimal(i) + [d];
    AdjustedOf(JStr(v));
    PaddedNumeral(c, i, d);
    assert PyInt(JStr(v)) == Some(i);
  }

  lemma PaddedNumeral(c: char, i: int, d: char)
    requires IsSpace(c) && IsSpace(d)
    ensures ParseInt([c] + IntToDecimal(i) + [d]) == Some(i)
  {
    var t := IntToDecimal(i);
    var v := [c] + t + [d];
    StripPadded(c, t, d);
    IntRoundTrip(i);
    ParseIntStrip(v);
    ParseIntStrip(t);
  }

  /** `int()` on text only sees the stripped text. */
  lemma ParseIntStrip(s: string)
    ensures ParseInt(s) == ParseInt(Strip(s))
  {
    assert Strip(Strip(s)) == Strip(s);
  }

  /** A section holding just `adjusted`. */
  lemma AdjustedOf(v: Json)
    ensures GetOr([("adjusted", v)], "adjusted", JNull) == v
  {
    var d: Dict := [("adjusted", v)];
    assert Keys(d) == ["adjusted"];
  }
}

=== FILE: ibkr_config.dfy ===
/** `load_config` of the price watcher: every setting is taken from an
    environment variable when it is set, else from `config.yaml`, else from a
    built-in default. The environment is a map from variable names to their
    text (the `.env` files are assumed already merged into it); the YAML file
    is its parsed value, or `None` when the file does not exist. */
module IbkrConfig {
  import opened Wrappers
  import opened PyText
  import opened JsonValue
  import Watcher

  /** The merged configuration. `host`, `useDelayed` and `webhookUrl` keep
      whatever value the file gave them, as the source does not convert them. */
  datatype Merged = Merged(
    host: Json,
    port: int,
    clientId: int,
    useDelayed: Json,
    webhookUrl: Json,
    throttleSeconds: real,
    minChangeAbs: real,
    minChangePct: real,
    symbolsDir: string)

  /** What `load_config` raises: the file or a section is not a mapping
      (`AttributeError` on `.get`), or `int()`/`float()` rejects a value. */
  datatype Error = FileNotMapping | SectionNotMapping(section: string) | NotInt(setting: string) | NotFloat(setting: string)

  /** The words `_env_bool` reads as true, after stripping and lower-casing. */
  const TrueWords: set<string> := {"1", "true", "yes", "y", "on"}

  /** `_env_bool`: the default, unchanged, when the variable is unset;
      otherwise whether its stripped, lower-cased text is one of `TrueWords`. */
  function EnvBool(env: map<string, string>, name: string, default: Json): (r: Json)
    ensures name !in env ==> r == default
    ensures name in env ==> r.JBool? && (r.b <==> Lower(Strip(env[name])) in TrueWords)
  {
    if name !in env then default
    else JBool(Lower(Strip(env[name])) in TrueWords)
  }

  /** `os.getenv(name, fallback)`: the variable's text when set, else the fallback. */
  function Pick(env: map<string, string>, name: string, fallback: Json): Json {
    if name in env then JStr(env[name]) else fallback
  }

  /** `yaml.safe_load(f) or {}`: a missing or falsy document is an empty
      mapping; any other document must be a mapping for `.get` to work. */
  function FileMapping(file: Option<Json>): (r: Result<Dict, Error>)
    ensures file.None? ==> r == Ok([])
    ensures r.Err? <==> file.Some? && Truthy(file.value) && !file.value.JObject?
  {
    match file
    case None => Ok([])
    case Some(doc) =>
      if !Truthy(doc) then Ok([])
      else if doc.JObject? then Ok(doc.entries)
      else Err(FileNotMapping)
  }

  /** `file_cfg.get(name, {})` as later used with `.get`: a missing section is
      empty, a present one must be a mapping. */
  function SectionOf(cfg: Dict, name: string): (r: Result<Dict, Error>)
    ensures !HasKey(cfg, name) ==> r == Ok([])
    ensures r.Err? <==> HasKey(cfg, name) && !Get(cfg, name).value.JObject?
  {
    match Get(cfg, name)
    case None => Ok([])
    case Some(JObject(entries)) => Ok(entries)
    case Some(_) => Err(SectionNotMapping(name))
  }

  function ToInt(v: Json, setting: string): (r: Result<int, Error>)
    ensures r.Err? ==> r.error == NotInt(setting)
  {
    match PyInt(v)
    case Some(i) => Ok(i)
    case None => Err(NotInt(setting))
  }

  function ToFloat(v: Json, setting: string, floatOfText: string -> Option<real>): (r: Result<real, Error>)
    ensures r.Err? ==> r.error == NotFloat(setting)
  {
    match PyFloat(v, floatOfText)
    case Some(x) => Ok(x)
    case None => Err(NotFloat(setting))
  }

  /** The `ib` part: host, port, client id and the delayed-data flag. The
      file's section is consulted (and must be a mapping) even when every
      variable is set, because Python evaluates `getenv`'s fallback first. */
  function IbPart(env: map<string, string>, file: Dict): (r: Result<(Json, int, int, Json), Error>)
    ensures r.Ok? ==> SectionOf(file, "ib").Ok?
    ensures SectionOf(file, "ib").Err? ==> r == Err(SectionNotMapping("ib"))
  {
    match SectionOf(file, "ib")
    case Err(e) => Err(e)
    case Ok(ib) =>
      var host := Pick(env, "IB_HOST", GetOr(ib, "host", JStr("127.0.0.1")));
      match ToInt(Pick(env, "IB_PORT", GetOr(ib, "port", JInt(7497))), "IB_PORT")
      case Err(e) => Err(e)
      case Ok(port) =>
        match ToInt(Pick(env, "IB_CLIENT_ID", GetOr(ib, "clientId", JInt(1001))), "IB_CLIENT_ID")
        case Err(e) => Err(e)
        case Ok(clientId) =>
          Ok((host, port, clientId, EnvBool(env, "IB_USE_DELAYED", GetOr(ib, "useDelayed", JBool(false)))))
  }

  /** The throttle and the two `defaults` thresholds. */
  function LimitsPart(env: map<string, string>, file: Dict, floatOfText: string -> Option<real>): (r: Result<(real, real, real), Error>)
    ensures r.Ok? ==> SectionOf(file, "defaults").Ok?
    ensures (PyFloat(Pick(env, "THROTTLE_SECONDS", GetOr(file, "throttle_seconds", JInt(2))), floatOfText).Some? &&
      SectionOf(file, "defaults").Err?) ==> r == Err(SectionNotMapping("defaults"))
    ensures r.Err? ==> r.error in {NotFloat("THROTTLE_SECONDS"), SectionNotMapping("defaults"),
                                   NotFloat("DEFAULT_MIN_CHANGE_ABS"), NotFloat("DEFAULT_MIN_CHANGE_PCT")}
  {
    match ToFloat(Pick(env, "THROTTLE_SECONDS", GetOr(file, "throttle_seconds", JInt(2))), "THROTTLE_SECONDS", floatOfText)
    case Err(e) => Err(e)
    case Ok(throttle) =>
      match SectionOf(file, "defaults")
      case Err(e) => Err(e)
      case Ok(defaults) =>
        match ToFloat(Pick(env, "DEFAULT_MIN_CHANGE_ABS", GetOr(defaults, "min_change_abs", JFloat(0.0, "0.0"))), "DEFAULT_MIN_CHANGE_ABS", floatOfText)
        case Err(e) => Err(e)
        case Ok(minAbs) =>
          match ToFloat(Pick(env, "DEFAULT_MIN_CHANGE_PCT", GetOr(defaults, "min_change_pct", JFloat(0.0, "0.0"))), "DEFAULT_MIN_CHANGE_PCT", floatOfText)
          case Err(e) => Err(e)
          case Ok(minPct) => Ok((throttle, minAbs, minPct))
  }

  /** `load_config`, the settings merged in source order; `projectSymbols` is
      the `symbols` directory beside the package. */
  function LoadConfig(env: map<string, string>, file: Option<Json>, floatOfText: string -> Option<real>, projectSymbols: string): (r: Result<Merged, Error>)
    ensures r.Ok? ==> FileMapping(file).Ok?
    ensures r.Ok? ==> r.value.symbolsDir == (if "SYMBOLS_DIR" in env then env["SYMBOLS_DIR"] else projectSymbols)
  {
    match FileMapping(file)
    case Err(e) => Err(e)
    case Ok(cfg) =>
      match IbPart(env, cfg)
      case Err(e) => Err(e)
      case Ok((host, port, clientId, useDelayed)) =>
        match SectionOf(cfg, "discord")
        case Err(e) => Err(e)
        case Ok(discord) =>
          var webhook := Pick(env, "DISCORD_WEBHOOK_URL", GetOr(discord, "webhook_url", JStr("")));
          match LimitsPart(env, cfg, floatOfText)
          case Err(e) => Err(e)
          case Ok((throttle, minAbs, minPct)) =>
            var dir := if "SYMBOLS_DIR" in env then env["SYMBOLS_DIR"] else projectSymbols;
            Ok(Merged(host, port, clientId, useDelayed, webhook, throttle, minAbs, minPct, dir))
  }

  /** The built-in configuration: no variable set and no `config.yaml`. */
  function BuiltIn(projectSymbols: string): Merged {
    Merged(JStr("127.0.0.1"), 7497, 1001, JBool(false), JStr(""), 2.0, 0.0, 0.0, projectSymbols)
  }

  /** With an empty environment and no file, every setting takes its
      built-in default. */
  lemma LoadConfigBuiltIn(floatOfText: string -> Option<real>, projectSymbols: string)
    ensures LoadConfig(map[], None, floatOfText, projectSymbols) == Ok(BuiltIn(projectSymbols))
  {
    var env: map<string, string> := map[];
    var empty: Dict := [];
    assert FileMapping(None) == Ok(empty);
    assert SectionOf(empty, "ib") == Ok(empty);
    assert IbPart(env, empty) == Ok((JStr("127.0.0.1"), 7497, 1001, JBool(false)));
    assert SectionOf(empty, "discord") == Ok(empty);
    assert SectionOf(empty, "defaults") == Ok(empty);
    assert LimitsPart(env, empty, floatOfText) == Ok((2.0, 0.0, 0.0));
  }

  /** Every variable `load_config` consults. */
  const Overrides: set<string> := {"IB_HOST", "IB_PORT", "IB_CLIENT_ID", "IB_USE_DELAYED", "DISCORD_WEBHOOK_URL", "THROTTLE_SECONDS", "DEFAULT_MIN_CHANGE_ABS", "DEFAULT_MIN_CHANGE_PCT", "SYMBOLS_DIR"}

  /** The configuration the variables alone determine, when all are set. */
  function FromEnvironment(env: map<string, string>, floatOfText: string -> Option<real>): Option<Merged>
    requires Overrides <= env.Keys
  {
    var port := ParseInt(env["IB_PORT"]);
    var clientId := ParseInt(env["IB_CLIENT_ID"]);
    var throttle := floatOfText(env["THROTTLE_SECONDS"]);
    var minAbs := floatOfText(env["DEFAULT_MIN_CHANGE_ABS"]);
    var minPct := floatOfText(env["DEFAULT_MIN_CHANGE_PCT"]);
    if port.None? || clientId.None? || throttle.None? || minAbs.None? || minPct.None? then None
    else Some(Merged(JStr(env["IB_HOST"]), port.value, clientId.value,
                     JBool(Lower(Strip(env["IB_USE_DELAYED"])) in TrueWords),
                     JStr(env["DISCORD_WEBHOOK_URL"]), throttle.value, minAbs.value, minPct.value,
                     env["SYMBOLS_DIR"]))
  }

  /** When every variable is set, a file that loads at all cannot change any
      setting: the result is the one the variables alone determine. */
  lemma EnvironmentWins(env: map<string, string>, file: Option<Json>, floatOfText: string -> Option<real>, projectSymbols: string)
    requires Overrides <= env.Keys
    requires LoadConfig(env, file, floatOfText, projectSymbols).Ok?
    ensures FromEnvironment(env, floatOfText) == Some(LoadConfig(env, file, floatOfText, projectSymbols).value)
  {
    var cfg, ib, discord, limits := LoadConfigParts(env, file, floatOfText, projectSymbols);
    assert "IB_HOST" in env && "IB_PORT" in env && "IB_CLIENT_ID" in env && "IB_USE_DELAYED" in env;
    assert "THROTTLE_SECONDS" in env && "DEFAULT_MIN_CHANGE_ABS" in env && "DEFAULT_MIN_CHANGE_PCT" in env;
    assert "DISCORD_WEBHOOK_URL" in env && "SYMBOLS_DIR" in env;
    IbPartFromEnv(env, cfg);
    LimitsPartFromEnv(env, cfg, floatOfText);
    var m := Merged(ib.0, ib.1, ib.2, ib.3, JStr(env["DISCORD_WEBHOOK_URL"]), limits.0, limits.1, limits.2, env["SYMBOLS_DIR"]);
    assert LoadConfig(env, file, floatOfText, projectSymbols).value == m;
    assert FromEnvironment(env, floatOfText) == Some(m);
  }

  /** A successful load, taken apart into the pieces it is assembled from. */
  lemma LoadConfigParts(env: map<string, string>, file: Option<Json>, floatOfText: string -> Option<real>, projectSymbols: string)
    returns (cfg: Dict, ib: (Json, int, int, Json), discord: Dict, limits: (real, real, real))
    requires LoadConfig(env, file, floatOfText, projectSymbols).Ok?
    ensures FileMapping(file) == Ok(cfg)
    ensures IbPart(env, cfg) == Ok(ib)
    ensures SectionOf(cfg, "discord") == Ok(discord)
    ensures LimitsPart(env, cfg, floatOfText) == Ok(limits)
    ensures LoadConfig(env, file, floatOfText, projectSymbols).value ==
      Merged(ib.0, ib.1, ib.2, ib.3, Pick(env, "DISCORD_WEBHOOK_URL", GetOr(discord, "webhook_url", JStr(""))),
             limits.0, limits.1, limits.2, if "SYMBOLS_DIR" in env then env["SYMBOLS_DIR"] else projectSymbols)
  {
    cfg := FileMapping(file).value;
    ib := IbPart(env, cfg).value;
    discord := SectionOf(cfg, "discord").value;
    limits := LimitsPart(env, cfg, floatOfText).value;
  }

  lemma IbPartFromEnv(env: map<string, string>, file: Dict)
    requires "IB_HOST" in env && "IB_PORT" in env && "IB_CLIENT_ID" in env && "IB_USE_DELAYED" in env
    ensures IbPart(env, file).Ok? ==> ParseInt(env["IB_PORT"]).Some? && ParseInt(env["IB_CLIENT_ID"]).Some?
    ensures IbPart(env, file).Ok? ==> (IbPart(env, file).value ==
      (JStr(env["IB_HOST"]), ParseInt(env["IB_PORT"]).value, ParseInt(env["IB_CLIENT_ID"]).value,
       JBool(Lower(Strip(env["IB_USE_DELAYED"])) in TrueWords)))
  {
    if IbPart(env, file).Ok? {
      var ib := SectionOf(file, "ib").value;
      assert Pick(env, "IB_PORT", GetOr(ib, "port", JInt(7497))) == JStr(env["IB_PORT"]);
      assert Pick(env, "IB_CLIENT_ID", GetOr(ib, "clientId", JInt(1001))) == JStr(env["IB_CLIENT_ID"]);
    }
  }

  lemma LimitsPartFromEnv(env: map<string, string>, file: Dict, floatOfText: string -> Option<real>)
    requires "THROTTLE_SECONDS" in env && "DEFAULT_MIN_CHANGE_ABS" in env && "DEFAULT_MIN_CHANGE_PCT" in env
    ensures LimitsPart(env, file, floatOfText).Ok? ==>
      floatOfText(env["THROTTLE_SECONDS"]).Some? && floatOfText(env["DEFAULT_MIN_CHANGE_ABS"]).Some? &&
      floatOfText(env["DEFAULT_MIN_CHANGE_PCT"]).Some?
    ensures LimitsPart(env, file, floatOfText).Ok? ==> (LimitsPart(env, file, floatOfText).value ==
      (floatOfText(env["THROTTLE_SECONDS"]).value, floatOfText(env["DEFAULT_MIN_CHANGE_ABS"]).value,
       floatOfText(env["DEFAULT_MIN_CHANGE_PCT"]).value))
  {
  }

  /** The value a setting is read from, stated without `getenv` and `get`:
      the variable's text when it is set, else the file's value, else the
      built-in default. */
  function Layered(env: map<string, string>, name: string, section: Dict, key: string, dflt: Json): Json {
    if name in env then JStr(env[name])
    else if HasKey(section, key) then Get(section, key).value
    else dflt
  }

  lemma PickLayered(env: map<string, string>, name: string, section: Dict, key: string, dflt: Json)
    ensures Pick(env, name, GetOr(section, key, dflt)) == Layered(env, name, section, key, dflt)
  {
  }

  /** The four `ib` settings of a successful part, each from its own layer. */
  lemma IbSettings(env: map<string, string>, cfg: Dict)
    requires IbPart(env, cfg).Ok?
    ensures var ib := SectionOf(cfg, "ib").value;
      var r := IbPart(env, cfg).value;
      && r.0 == Layered(env, "IB_HOST", ib, "host", JStr("127.0.0.1"))
      && Some(r.1) == PyInt(Layered(env, "IB_PORT", ib, "port", JInt(7497)))
      && Some(r.2) == PyInt(Layered(env, "IB_CLIENT_ID", ib, "clientId", JInt(1001)))
      && ("IB_USE_DELAYED" in env ==> r.3 == JBool(Lower(Strip(env["IB_USE_DELAYED"])) in TrueWords))
      && ("IB_USE_DELAYED" !in env ==> r.3 == Layered(env, "IB_USE_DELAYED", ib, "useDelayed", JBool(false)))
  {
    var ib := SectionOf(cfg, "ib").value;
    PickLayered(env, "IB_HOST", ib, "host", JStr("127.0.0.1"));
    PickLayered(env, "IB_PORT", ib, "port", JInt(7497));
    PickLayered(env, "IB_CLIENT_ID", ib, "clientId", JInt(1001));
  }

  /** The throttle and the two thresholds of a successful part, each from its own layer. */
  lemma LimitSettings(env: map<string, string>, cfg: Dict, floatOfText: string -> Option<real>)
    requires LimitsPart(env, cfg, floatOfText).Ok?
    ensures var defaults := SectionOf(cfg, "defaults").value;
      var r := LimitsPart(env, cfg, floatOfText).value;
      && Some(r.0) == PyFloat(Layered(env, "THROTTLE_SECONDS", cfg, "throttle_seconds", JInt(2)), floatOfText)
      && Some(r.1) == PyFloat(Layered(env, "DEFAULT_MIN_CHANGE_ABS", defaults, "min_change_abs", JFloat(0.0, "0.0")), floatOfText)
      && Some(r.2) == PyFloat(Layered(env, "DEFAULT_MIN_CHANGE_PCT", defaults, "min_change_pct", JFloat(0.0, "0.0")), floatOfText)
  {
    var defaults := SectionOf(cfg, "defaults").value;
    PickLayered(env, "THROTTLE_SECONDS", cfg, "throttle_seconds", JInt(2));
    PickLayered(env, "DEFAULT_MIN_CHANGE_ABS", defaults, "min_change_abs", JFloat(0.0, "0.0"));
    PickLayered(env, "DEFAULT_MIN_CHANGE_PCT", defaults, "min_change_pct", JFloat(0.0, "0.0"));
  }

  /** In any environment, every setting of a successful load comes from its
      variable when that is set, else from the file, else from the built-in
      default, converted by `int()` or `float()` where the source converts it. */
  lemma SettingPrecedence(env: map<string, string>, file: Option<Json>, floatOfText: string -> Option<real>, projectSymbols: string)
    requires LoadConfig(env, file, floatOfText, projectSymbols).Ok?
    ensures var m := LoadConfig(env, file, floatOfText, projectSymbols).value;
      var cfg := FileMapping(file).value;
      var ib := SectionOf(cfg, "ib").value;
      var defaults := SectionOf(cfg, "defaults").value;
      && m.host == Layered(env, "IB_HOST", ib, "host", JStr("127.0.0.1"))
      && Some(m.port) == PyInt(Layered(env, "IB_PORT", ib, "port", JInt(7497)))
      && Some(m.clientId) == PyInt(Layered(env, "IB_CLIENT_ID", ib, "clientId", JInt(1001)))
      && ("IB_USE_DELAYED" in env ==> m.useDelayed == JBool(Lower(Strip(env["IB_USE_DELAYED"])) in TrueWords))
      && ("IB_USE_DELAYED" !in env ==> m.useDelayed == Layered(env, "IB_USE_DELAYED", ib, "useDelayed", JBool(false)))
      && m.webhookUrl == Layered(env, "DISCORD_WEBHOOK_URL", SectionOf(cfg, "discord").value, "webhook_url", JStr(""))
      && Some(m.throttleSeconds) == PyFloat(Layered(env, "THROTTLE_SECONDS", cfg, "throttle_seconds", JInt(2)), floatOfText)
      && Some(m.minChangeAbs) == PyFloat(Layered(env, "DEFAULT_MIN_CHANGE_ABS", defaults, "min_change_abs", JFloat(0.0, "0.0")), floatOfText)
      && Some(m.minChangePct) == PyFloat(Layered(env, "DEFAULT_MIN_CHANGE_PCT", defaults, "min_change_pct", JFloat(0.0, "0.0")), floatOfText)
      && m.symbolsDir == (if "SYMBOLS_DIR" in env then env["SYMBOLS_DIR"] else projectSymbols)
  {
    var cfg, ib, discord, limits := LoadConfigParts(env, file, floatOfText, projectSymbols);
    IbSettings(env, cfg);
    LimitSettings(env, cfg, floatOfText);
    PickLayered(env, "DISCORD_WEBHOOK_URL", discord, "webhook_url", JStr(""));
  }

  /** What a load needs, stated as one condition independent of the order in
      which the source evaluates it: the document and its `ib`, `discord` and
      `defaults` sections are mappings, `int()` reads the port and client id,
      and `float()` reads the throttle and both thresholds, each taken from
      its own layer. */
  predicate Loadable(env: map<string, string>, file: Option<Json>, floatOfText: string -> Option<real>) {
    && FileMapping(file).Ok?
    && var cfg := FileMapping(file).value;
    && SectionOf(cfg, "ib").Ok? && SectionOf(cfg, "discord").Ok? && SectionOf(cfg, "defaults").Ok?
    && var ib := SectionOf(cfg, "ib").value;
    && var defaults := SectionOf(cfg, "defaults").value;
    && PyInt(Layered(env, "IB_PORT", ib, "port", JInt(7497))).Some?
    && PyInt(Layered(env, "IB_CLIENT_ID", ib, "clientId", JInt(1001))).Some?
    && PyFloat(Layered(env, "THROTTLE_SECONDS", cfg, "throttle_seconds", JInt(2)), floatOfText).Some?
    && PyFloat(Layered(env, "DEFAULT_MIN_CHANGE_ABS", defaults, "min_change_abs", JFloat(0.0, "0.0")), floatOfText).Some?
    && PyFloat(Layered(env, "DEFAULT_MIN_CHANGE_PCT", defaults, "min_change_pct", JFloat(0.0, "0.0")), floatOfText).Some?
  }

  /** The load succeeds exactly on loadable inputs: no configuration the
      source accepts is refused, and every one it refuses breaks a condition. */
  lemma LoadConfigSucceeds(env: map<string, string>, file: Option<Json>, floatOfText: string -> Option<real>, projectSymbols: string)
    ensures LoadConfig(env, file, floatOfText, projectSymbols).Ok? <==> Loadable(env, file, floatOfText)
  {
    if FileMapping(file).Ok? {
      var cfg := FileMapping(file).value;
      PickLayered(env, "THROTTLE_SECONDS", cfg, "throttle_seconds", JInt(2));
      if SectionOf(cfg, "ib").Ok? {
        var ib := SectionOf(cfg, "ib").value;
        PickLayered(env, "IB_PORT", ib, "port", JInt(7497));
        PickLayered(env, "IB_CLIENT_ID", ib, "clientId", JInt(1001));
      }
      if SectionOf(cfg, "defaults").Ok? {
        var defaults := SectionOf(cfg, "defaults").value;
        PickLayered(env, "DEFAULT_MIN_CHANGE_ABS", defaults, "min_change_abs", JFloat(0.0, "0.0"));
        PickLayered(env, "DEFAULT_MIN_CHANGE_PCT", defaults, "min_change_pct", JFloat(0.0, "0.0"));
      }
    }
  }

  /** A port variable that `int()` cannot read fails the load once the file
      and its `ib` section are usable, whatever the other variables say. */
  lemma UnreadablePortFails(env: map<string, string>, file: Option<Json>, floatOfText: string -> Option<real>, projectSymbols: string)
    requires FileMapping(file).Ok? && SectionOf(FileMapping(file).value, "ib").Ok?
    requires "IB_PORT" in env && ParseInt(env["IB_PORT"]).None?
    ensures LoadConfig(env, file, floatOfText, projectSymbols) == Err(NotInt("IB_PORT"))
  {
    var cfg := FileMapping(file).value;
    var ib := SectionOf(cfg, "ib").value;
    assert Pick(env, "IB_PORT", GetOr(ib, "port", JInt(7497))) == JStr(env["IB_PORT"]);
    assert IbPart(env, cfg) == Err(NotInt("IB_PORT"));
  }

  /** Without variables, a setting present in the file is used, converted
      as `int()`/`float()` would; one absent from the file takes its
      built-in default. */
  lemma FileOverridesDefaults(file: Option<Json>, floatOfText: string -> Option<real>, projectSymbols: string)
    requires LoadConfig(map[], file, floatOfText, projectSymbols).Ok?
    ensures var m := LoadConfig(map[], file, floatOfText, projectSymbols).value;
      var cfg := FileMapping(file).value;
      var ib := SectionOf(cfg, "ib").value;
      var defaults := SectionOf(cfg, "defaults").value;
      var discord := SectionOf(cfg, "discord").value;
      && (HasKey(ib, "host") ==> m.host == Get(ib, "host").value)
      && (!HasKey(ib, "host") ==> m.host == JStr("127.0.0.1"))
      && (HasKey(ib, "port") ==> Some(m.port) == PyInt(Get(ib, "port").value))
      && (!HasKey(ib, "port") ==> m.port == 7497)
      && (HasKey(ib, "clientId") ==> Some(m.clientId) == PyInt(Get(ib, "clientId").value))
      && (!HasKey(ib, "clientId") ==> m.clientId == 1001)
      && (HasKey(ib, "useDelayed") ==> m.useDelayed == Get(ib, "useDelayed").value)
      && (!HasKey(ib, "useDelayed") ==> m.useDelayed == JBool(false))
      && (HasKey(discord, "webhook_url") ==> m.webhookUrl == Get(discord, "webhook_url").value)
      && (!HasKey(discord, "webhook_url") ==> m.webhookUrl == JStr(""))
      && (HasKey(cfg, "throttle_seconds") ==> Some(m.throttleSeconds) == PyFloat(Get(cfg, "throttle_seconds").value, floatOfText))
      && (!HasKey(cfg, "throttle_seconds") ==> m.throttleSeconds == 2.0)
      && (HasKey(defaults, "min_change_abs") ==> Some(m.minChangeAbs) == PyFloat(Get(defaults, "min_change_abs").value, floatOfText))
      && (!HasKey(defaults, "min_change_abs") ==> m.minChangeAbs == 0.0)
      && (HasKey(defaults, "min_change_pct") ==> Some(m.minChangePct) == PyFloat(Get(defaults, "min_change_pct").value, floatOfText))
      && (!HasKey(defaults, "min_change_pct") ==> m.minChangePct == 0.0)
      && m.symbolsDir == projectSymbols
  {
    SettingPrecedence(map[], file, floatOfText, projectSymbols);
  }

  /** The file's `ib` section is read even when all of its settings come from
      the environment: a section that is not a mapping fails the load
      whatever the variables say. */
  lemma MalformedSectionFails(env: map<string, string>, floatOfText: string -> Option<real>, projectSymbols: string)
    ensures LoadConfig(env, Some(JObject([("ib", JInt(5))])), floatOfText, projectSymbols) == Err(SectionNotMapping("ib"))
  {
    var cfg: Dict := [("ib", JInt(5))];
    assert Keys(cfg) == ["ib"];
    assert Get(cfg, "ib") == Some(JInt(5));
    assert SectionOf(cfg, "ib") == Err(SectionNotMapping("ib"));
  }

  /** `_env_bool` ignores case and surrounding whitespace: a value padded
      with spaces and upper-cased reads as the value itself. */
  lemma EnvBoolForgiving(env: map<string, string>, name: string, v: string, c: char, d: char, default: Json)
    requires IsSpace(c) && IsSpace(d)
    ensures EnvBool(env[name := [c] + Upper(v) + [d]], name, default) == EnvBool(env[name := v], name, default)
  {
    StripPadded(c, Upper(v), d);
    StripUpper(v);
    LowerUpper(Strip(v));
  }

  /** A numeral other than "1" reads as false: `_env_bool` is not `int()`. */
  lemma EnvBoolNumerals(env: map<string, string>, name: string, default: Json)
    requires name in env && |env[name]| > 0 && env[name] != "1"
    requires forall i :: 0 <= i < |env[name]| ==> IsDigit(env[name][i])
    ensures EnvBool(env, name, default) == JBool(false)
  {
    var v := env[name];
    assert Trimmed(v);
    var l := Lower(v);
    assert l == v;
    assert v[0] != 't' && v[0] != 'y' && v[0] != 'o';
  }

  /** The part of the merged configuration the watcher reads, with the
      symbol table loaded from `symbolsDir`. */
  function WatcherConfig(m: Merged, symbols: map<string, Dict>, floatOfText: string -> Option<real>): Watcher.Config {
    Watcher.Config(Some(m.throttleSeconds), Some(m.minChangeAbs), Some(m.minChangePct), m.webhookUrl, symbols, floatOfText)
  }

  /** Under the built-in configuration the watcher throttles each symbol for
      two seconds after its last alert and posts nothing to a webhook. */
  lemma BuiltInWatcher(projectSymbols: string, symbols: map<string, Dict>, floatOfText: string -> Option<real>,
                       st: Watcher.State, t: Watcher.Tick, now: real)
    ensures var c := WatcherConfig(BuiltIn(projectSymbols), symbols, floatOfText);
      && (Watcher.Throttled(c, st, t.symbol, now) <==> now - Watcher.Lookup(st.lastSentTime, t.symbol).GetOr(0.0) < 2.0)
      && (Watcher.OnTick(c, st, t, now).outcome.Sent? ==> !Watcher.OnTick(c, st, t, now).outcome.alert.viaWebhook)
  {
  }
}

=== FILE: json.dfy ===
/** Parsed JSON/YAML values as the Python code sees them after `json.loads`:
    `None`, booleans, integers, floats, strings, lists and insertion-ordered
    dicts, together with the Python built-ins the code applies to them
    (`dict.get`, `str()`, `int()`, `float()`, truthiness). */
module JsonValue {
  import opened Wrappers
  import opened PyText

  /** A JSON value. A float carries its value and the text Python's `repr`
      gives for it; an object is an insertion-ordered list of entries. */
  datatype Json =
    | JNull
    | JBool(b: bool)
    | JInt(i: int)
    | JFloat(v: real, text: string)
    | JStr(s: string)
    | JList(items: seq<Json>)
    | JObject(entries: seq<(string, Json)>)

  /** A Python dict with string keys, in insertion order. */
  type Dict = seq<(string, Json)>

  /** `list(d.keys())`. */
  function Keys(d: Dict): (ks: seq<string>)
    ensures |ks| == |d|
    ensures forall i :: 0 <= i < |d| ==> ks[i] == d[i].0
  {
    seq(|d|, i requires 0 <= i < |d| => d[i].0)
  }

  /** `k in d`. */
  predicate HasKey(d: Dict, k: string) {
    k in Keys(d)
  }

  /** `d[k]` when present: the value of the first entry with key `k`. */
  function Get(d: Dict, k: string): (r: Option<Json>)
    ensures r.Some? <==> HasKey(d, k)
    ensures r.Some? ==> exists i :: 0 <= i < |d| && d[i] == (k, r.value)
    ensures forall i :: 0 <= i < |d| && d[i].0 == k && !HasKey(d[..i], k) ==> r == Some(d[i].1)
  {
    if |d| == 0 then None
    else if d[0].0 == k then Some(d[0].1)
    else
      assert Keys(d) == [d[0].0] + Keys(d[1..]);
      var r := Get(d[1..], k);
      assert forall i :: 1 <= i <= |d| ==> d[1..][..i - 1] == d[..i][1..];
      assert forall i :: 1 <= i <= |d| ==> Keys(d[..i]) == [d[0].0] + Keys(d[1..][..i - 1]);
      r
  }

  /** `d.get(k, dflt)`. */
  function GetOr(d: Dict, k: string, dflt: Json): Json {
    Get(d, k).GetOr(dflt)
  }

  /** Python truthiness (`if x:`) of a JSON value. */
  predicate Truthy(j: Json) {
    match j
    case JNull => false
    case JBool(b) => b
    case JInt(i) => i != 0
    case JFloat(v, _) => v != 0.0
    case JStr(s) => s != ""
    case JList(items) => items != []
    case JObject(entries) => entries != []
  }

  /** Python's `str(x)`. Strings are themselves; containers use `repr` of their parts. */
  function PyStr(j: Json): string
    decreases j, 1
  {
    match j
    case JStr(s) => s
    case _ => Repr(j)
  }

  /** Python's `repr(x)`. Strings are quoted with single quotes; escaping of
      quotes and control characters inside them is not modelled. */
  function Repr(j: Json): string
    decreases j, 0
  {
    match j
    case JNull => "None"
    case JBool(b) => if b then "True" else "False"
    case JInt(i) => IntToDecimal(i)
    case JFloat(_, text) => text
    case JStr(s) => "'" + s + "'"
    case JList(items) => "[" + ReprItems(items) + "]"
    case JObject(entries) => "{" + ReprEntries(entries) + "}"
  }

  function ReprItems(items: seq<Json>): string
    decreases items
  {
    if |items| == 0 then ""
    else if |items| == 1 then Repr(items[0])
    else Repr(items[0]) + ", " + ReprItems(items[1..])
  }

  function ReprEntries(entries: seq<(string, Json)>): string
    decreases entries
  {
    if |entries| == 0 then ""
    else
      var e := entries[0];
      assert e in entries;
      assert e.1 < e;
      var first := "'" + e.0 + "': " + Repr(e.1);
      if |entries| == 1 then first else first + ", " + ReprEntries(entries[1..])
  }

  /** Python's `int(x)`: booleans are 0/1, floats truncate toward zero, strings
      are parsed; `None`, lists and dicts raise, modelled as `None`. */
  function PyInt(j: Json): (r: Option<int>)
    ensures j.JNull? || j.JList? || j.JObject? ==> r.None?
    ensures j.JInt? ==> r == Some(j.i)
    ensures j.JFloat? && j.v >= 0.0 ==> r.Some? && r.value as real <= j.v < r.value as real + 1.0
    ensures j.JFloat? && j.v < 0.0 ==> r.Some? && r.value as real - 1.0 < j.v <= r.value as real
  {
    match j
    case JBool(b) => Some(if b then 1 else 0)
    case JInt(i) => Some(i)
    case JFloat(v, _) => Some(if v >= 0.0 then v.Floor else -((-v).Floor))
    case JStr(s) => ParseInt(s)
    case _ => None
  }

  /** Python's `float(x)`; converting a string is delegated to `floatOfText`,
      which answers `None` where Python raises. */
  function PyFloat(j: Json, floatOfText: string -> Option<real>): (r: Option<real>)
    ensures j.JNull? || j.JList? || j.JObject? ==> r.None?
    ensures j.JInt? ==> r == Some(j.i as real)
    ensures j.JFloat? ==> r == Some(j.v)
  {
    match j
    case JBool(b) => Some(if b then 1.0 else 0.0)
    case JInt(i) => Some(i as real)
    case JFloat(v, _) => Some(v)
    case JStr(s) => floatOfText(s)
    case _ => None
  }
}

=== FILE: pytext.dfy ===
/** The few Python `str` operations the modelled code relies on: `strip()`,
    `lower()`, `upper()`, ordering with `<`, and conversion to and from `int`.
    Character classes are the ASCII part of Python's Unicode tables. */
module PyText {
  import opened Wrappers

  /** Python's `str.isspace()` on ASCII, plus NEL and no-break space. */
  predicate IsSpace(c: char) {
    c == ' ' || c == '\t' || c == '\n' || c == '\r' || c == '\U{B}' || c == '\U{C}'
    || ('\U{1C}' <= c <= '\U{1F}') || c == '\U{85}' || c == '\U{A0}'
  }

  predicate IsDigit(c: char) {
    '0' <= c <= '9'
  }

  predicate IsLowerAscii(c: char) {
    'a' <= c <= 'z'
  }

  predicate IsUpperAscii(c: char) {
    'A' <= c <= 'Z'
  }

  /** True when `s` neither starts nor ends with whitespace. */
  predicate Trimmed(s: string) {
    |s| == 0 || (!IsSpace(s[0]) && !IsSpace(s[|s| - 1]))
  }

  /** `s.lstrip()`: drops the leading whitespace and nothing else. */
  function TrimStart(s: string): (r: string)
    ensures |r| <= |s| && r == s[|s| - |r|..]
    ensures |r| == 0 || !IsSpace(r[0])
    ensures forall i :: 0 <= i < |s| - |r| ==> IsSpace(s[i])
  {
    if |s| > 0 && IsSpace(s[0]) then TrimStart(s[1..]) else s
  }

  /** `s.rstrip()`: drops the trailing whitespace and nothing else. */
  function TrimEnd(s: string): (r: string)
    ensures |r| <= |s| && r == s[..|r|]
    ensures |r| == 0 || !IsSpace(r[|r| - 1])
    ensures forall i :: |r| <= i < |s| ==> IsSpace(s[i])
  {
    if |s| > 0 && IsSpace(s[|s| - 1]) then TrimEnd(s[..|s| - 1]) else s
  }

  /** `s.strip()`: the result has no whitespace at either end, and a string
      that has none is left as it is. */
  function Strip(s: string): (r: string)
    ensures Trimmed(r)
    ensures |r| <= |s|
    ensures Trimmed(s) ==> r == s
  {
    var a := TrimStart(s);
    var r := TrimEnd(a);
    assert Trimmed(r) by {
      if |r| > 0 {
        assert r[0] == a[0];
      }
    }
    r
  }

  function LowerChar(c: char): (d: char)
    ensures !IsUpperAscii(d)
    ensures IsUpperAscii(c) || d == c
  {
    if IsUpperAscii(c) then (c as int + 32) as char else c
  }

  function UpperChar(c: char): (d: char)
    ensures !IsLowerAscii(d)
    ensures IsLowerAscii(c) || d == c
  {
    if IsLowerAscii(c) then (c as int - 32) as char else c
  }

  /** `s.lower()` restricted to ASCII letters. */
  function Lower(s: string): (r: string)
    ensures |r| == |s|
    ensures forall i :: 0 <= i < |r| ==> !IsUpperAscii(r[i])
    ensures forall i :: 0 <= i < |s| && !IsUpperAscii(s[i]) ==> r[i] == s[i]
    ensures forall i :: 0 <= i < |s| ==> (IsSpace(r[i]) <==> IsSpace(s[i]))
  {
    seq(|s|, i requires 0 <= i < |s| => LowerChar(s[i]))
  }

  /** `s.upper()` restricted to ASCII letters. */
  function Upper(s: string): (r: string)
    ensures |r| == |s|
    ensures forall i :: 0 <= i < |r| ==> !IsLowerAscii(r[i])
    ensures forall i :: 0 <= i < |s| && !IsLowerAscii(s[i]) ==> r[i] == s[i]
    ensures forall i :: 0 <= i < |s| ==> (IsSpace(r[i]) <==> IsSpace(s[i]))
  {
    seq(|s|, i requires 0 <= i < |s| => UpperChar(s[i]))
  }

  /** Whitespace added at either end does not survive `strip()`. */
  lemma StripPadded(c: char, v: string, d: char)
    requires IsSpace(c) && IsSpace(d)
    ensures Strip([c] + v + [d]) == Strip(v)
  {
    var s := [c] + v + [d];
    assert s[1..] == v + [d];
    assert TrimStart(s) == TrimStart(v + [d]);
    TrimEndDropsSpace(v, d);
  }

  lemma {:induction false} TrimEndDropsSpace(v: string, d: char)
    requires IsSpace(d)
    ensures TrimEnd(TrimStart(v + [d])) == TrimEnd(TrimStart(v))
  {
    var s := v + [d];
    if |v| > 0 && IsSpace(v[0]) {
      assert s[1..] == v[1..] + [d];
      TrimEndDropsSpace(v[1..], d);
    } else if |v| > 0 {
      assert s[..|s| - 1] == v;
    } else {
      assert s == [d] && s[1..] == [];
    }
  }

  /** `strip()` and `upper()` commute. */
  lemma StripUpper(s: string)
    ensures Strip(Upper(s)) == Upper(Strip(s))
  {
    TrimStartUpper(s);
    TrimEndUpper(TrimStart(s));
  }

  lemma {:induction false} TrimStartUpper(s: string)
    ensures TrimStart(Upper(s)) == Upper(TrimStart(s))
  {
    if |s| > 0 {
      assert Upper(s)[1..] == Upper(s[1..]);
      TrimStartUpper(s[1..]);
    }
  }

  lemma {:induction false} TrimEndUpper(s: string)
    ensures TrimEnd(Upper(s)) == Upper(TrimEnd(s))
  {
    if |s| > 0 {
      assert Upper(s)[..|s| - 1] == Upper(s[..|s| - 1]);
      TrimEndUpper(s[..|s| - 1]);
    }
  }

  /** Lower-casing forgets an earlier upper-casing. */
  lemma LowerUpper(s: string)
    ensures Lower(Upper(s)) == Lower(s)
  {
    forall i | 0 <= i < |s|
      ensures Lower(Upper(s))[i] == Lower(s)[i]
    {
      assert Upper(s)[i] == UpperChar(s[i]);
    }
  }

  /** Python's `a < b` on strings: lexicographic by code point. */
  predicate LexLess(a: string, b: string) {
    if |a| == 0 then |b| > 0
    else if |b| == 0 then false
    else if a[0] != b[0] then a[0] < b[0]
    else LexLess(a[1..], b[1..])
  }

  /** String `<` is a strict order: never both ways, never on equal strings. */
  lemma {:induction false} LexLessAsymmetric(a: string, b: string)
    ensures LexLess(a, b) ==> !LexLess(b, a)
    ensures !LexLess(a, a)
  {
    if |a| > 0 && |b| > 0 && a[0] == b[0] {
      LexLessAsymmetric(a[1..], b[1..]);
    }
    if |a| > 0 {
      LexLessAsymmetric(a[1..], a[1..]);
    }
  }

  /** String `<` is total on distinct strings. */
  lemma {:induction false} LexLessTotal(a: string, b: string)
    ensures a == b || LexLess(a, b) || LexLess(b, a)
  {
    if |a| > 0 && |b| > 0 && a[0] == b[0] {
      LexLessTotal(a[1..], b[1..]);
      if a[1..] == b[1..] {
        assert a == [a[0]] + a[1..] && b == [b[0]] + b[1..];
      }
    }
  }

  // ---------- int(text) and str(int) ----------

  function DigitValue(c: char): nat
    requires IsDigit(c)
  {
    c as int - '0' as int
  }

  function DigitChar(d: nat): (c: char)
    requires d < 10
    ensures IsDigit(c) && DigitValue(c) == d
  {
    ('0' as int + d) as char
  }

  /** The body of an integer literal as `int()` accepts it: decimal digits,
      optionally grouped by single underscores between digits. */
  predicate DigitGroups(s: string) {
    && |s| > 0
    && IsDigit(s[0])
    && IsDigit(s[|s| - 1])
    && (forall i :: 0 <= i < |s| ==> IsDigit(s[i]) || s[i] == '_')
    && (forall i :: 0 <= i < |s| - 1 && s[i] == '_' ==> s[i + 1] != '_')
  }

  /** The value of the digits of `s`, ignoring underscores. */
  function DigitsValue(s: string): nat
    requires forall i :: 0 <= i < |s| ==> IsDigit(s[i]) || s[i] == '_'
  {
    if |s| == 0 then 0
    else if s[|s| - 1] == '_' then DigitsValue(s[..|s| - 1])
    else 10 * DigitsValue(s[..|s| - 1]) + DigitValue(s[|s| - 1])
  }

  /** Python's `int(s)` for a string: surrounding whitespace is ignored, one
      optional sign, then digit groups; anything else raises `ValueError`,
      modelled as `None`. */
  function ParseInt(s: string): (r: Option<int>)
    ensures r.Some? ==> |Strip(s)| > 0 && IsDigit(Strip(s)[|Strip(s)| - 1])
    ensures |Strip(s)| == 0 ==> r.None?
  {
    var t := Strip(s);
    if |t| > 0 && (t[0] == '+' || t[0] == '-') then
      var body := t[1..];
      if DigitGroups(body) then
        var v: int := DigitsValue(body);
        Some(if t[0] == '-' then -v else v)
      else None
    else if DigitGroups(t) then Some(DigitsValue(t))
    else None
  }

  /** The decimal digits of a natural number, most significant first. */
  function NatToDecimal(n: nat): (r: string)
    ensures |r| > 0
    ensures forall i :: 0 <= i < |r| ==> IsDigit(r[i])
    ensures DigitsValue(r) == n
    decreases n
  {
    if n < 10 then [DigitChar(n)]
    else
      var r := NatToDecimal(n / 10) + [DigitChar(n % 10)];
      assert r[..|r| - 1] == NatToDecimal(n / 10);
      r
  }

  /** Python's `str(i)` for an integer. */
  function IntToDecimal(i: int): (r: string)
    ensures |r| > 0 && IsDigit(r[|r| - 1])
  {
    if i < 0 then "-" + NatToDecimal(-i) else NatToDecimal(i)
  }

  /** `int(str(i)) == i` for every integer. */
  lemma IntRoundTrip(i: int)
    ensures ParseInt(IntToDecimal(i)) == Some(i)
  {
    var r := IntToDecimal(i);
    if i < 0 {
      var body := NatToDecimal(-i);
      assert r == "-" + body;
      assert r[1..] == body;
      assert Trimmed(r);
      assert Strip(r) == r;
      PlainDigits(body);
    } else {
      assert r == NatToDecimal(i);
      assert Trimmed(r);
      assert Strip(r) == r;
      PlainDigits(r);
      assert !(r[0] == '+' || r[0] == '-');
    }
  }

  /** Digits without underscores form a valid literal body. */
  lemma PlainDigits(s: string)
    requires |s| > 0 && forall i :: 0 <= i < |s| ==> IsDigit(s[i])
    ensures DigitGroups(s)
  {
  }
}

=== FILE: sanitize.dfy ===
/** `_sanitize_filename` of the EODHD fetcher's configuration loader: every
    maximal run of characters outside `[A-Za-z0-9._-]` is replaced by a single
    underscore, as `re.sub(r"[^A-Za-z0-9._-]+", "_", s)` does. */
module Sanitize {

  /** The characters a file name may keep. */
  predicate Allowed(c: char) {
    ('A' <= c <= 'Z') || ('a' <= c <= 'z') || ('0' <= c <= '9') || c == '.' || c == '_' || c == '-'
  }

  predicate AllAllowed(s: string) {
    forall i :: 0 <= i < |s| ==> Allowed(s[i])
  }

  /** True when `s` is a non-empty run of characters that are not allowed. */
  predicate BadRun(s: string) {
    |s| > 0 && forall i :: 0 <= i < |s| ==> !Allowed(s[i])
  }

  /** The length of the run of disallowed characters at the start of `s`. */
  function RunLength(s: string): (n: nat)
    ensures n <= |s|
    ensures forall i :: 0 <= i < n ==> !Allowed(s[i])
    ensures n < |s| ==> Allowed(s[n])
  {
    if |s| > 0 && !Allowed(s[0]) then 1 + RunLength(s[1..]) else 0
  }

  /** The sanitised file name. */
  function SanitizeFilename(s: string): (r: string)
    ensures |r| <= |s|
    decreases |s|
  {
    if |s| == 0 then ""
    else if Allowed(s[0]) then [s[0]] + SanitizeFilename(s[1..])
    else "_" + SanitizeFilename(s[RunLength(s)..])
  }

  /** A run of disallowed characters followed by the end of the string or by
      an allowed character becomes exactly one underscore. */
  lemma RunBecomesOneUnderscore(bad: string, rest: string)
    requires BadRun(bad)
    requires |rest| == 0 || Allowed(rest[0])
    ensures SanitizeFilename(bad + rest) == "_" + SanitizeFilename(rest)
  {
    var s := bad + rest;
    RunLengthOfRun(bad, rest);
    assert s[RunLength(s)..] == rest;
  }

  lemma {:induction false} RunLengthOfRun(bad: string, rest: string)
    requires forall i :: 0 <= i < |bad| ==> !Allowed(bad[i])
    requires |rest| == 0 || Allowed(rest[0])
    ensures RunLength(bad + rest) == |bad|
  {
    if |bad| > 0 {
      assert (bad + rest)[1..] == bad[1..] + rest;
      RunLengthOfRun(bad[1..], rest);
    } else {
      assert bad + rest == rest;
    }
  }

  /** Sanitising works piecewise across a cut that does not split a run of
      disallowed characters: the left piece ends, or the right piece starts,
      with an allowed character. */
  lemma {:induction false} SanitizeConcat(a: string, b: string)
    requires |a| == 0 || |b| == 0 || Allowed(a[|a| - 1]) || Allowed(b[0])
    ensures SanitizeFilename(a + b) == SanitizeFilename(a) + SanitizeFilename(b)
    decreases |a|
  {
    if |a| == 0 {
      assert a + b == b;
    } else if |b| == 0 {
      assert a + b == a;
    } else if Allowed(a[0]) {
      SanitizeConcat(a[1..], b);
      AllowedHead(a, b);
    } else if RunLength(a) < |a| {
      SanitizeConcat(a[RunLength(a)..], b);
      RunHead(a, b);
    } else {
      WholeRun(a, b);
    }
  }

  /** The step of `SanitizeConcat` when `a` starts with an allowed character. */
  lemma AllowedHead(a: string, b: string)
    requires |a| > 0 && Allowed(a[0])
    requires SanitizeFilename(a[1..] + b) == SanitizeFilename(a[1..]) + SanitizeFilename(b)
    ensures SanitizeFilename(a + b) == SanitizeFilename(a) + SanitizeFilename(b)
  {
    ConsKeep(a, b);
    KeepStep(a);
    var x, y := SanitizeFilename(a[1..]), SanitizeFilename(b);
    assert [a[0]] + (x + y) == ([a[0]] + x) + y;
  }

  lemma ConsKeep(a: string, b: string)
    requires |a| > 0 && Allowed(a[0])
    ensures SanitizeFilename(a + b) == [a[0]] + SanitizeFilename(a[1..] + b)
  {
    KeepStep(a + b);
    assert (a + b)[1..] == a[1..] + b;
  }

  /** An allowed first character is kept and the rest is sanitised. */
  lemma KeepStep(s: string)
    requires |s| > 0 && Allowed(s[0])
    ensures SanitizeFilename(s) == [s[0]] + SanitizeFilename(s[1..])
  {
  }

  /** A disallowed first character starts a run that becomes one underscore. */
  lemma RunStep(s: string)
    requires |s| > 0 && !Allowed(s[0])
    ensures SanitizeFilename(s) == "_" + SanitizeFilename(s[RunLength(s)..])
  {
  }

  /** The step of `SanitizeConcat` when `a` starts with a run that ends inside it. */
  lemma RunHead(a: string, b: string)
    requires |a| > 0 && !Allowed(a[0]) && RunLength(a) < |a|
    requires SanitizeFilename(a[RunLength(a)..] + b) == SanitizeFilename(a[RunLength(a)..]) + SanitizeFilename(b)
    ensures SanitizeFilename(a + b) == SanitizeFilename(a) + SanitizeFilename(b)
  {
    var s := a + b;
    var n := RunLength(a);
    RunLengthPrefix(a, b);
    assert s[0] == a[0];
    assert s[n..] == a[n..] + b;
    RunStep(s);
    RunStep(a);
    var x, y := SanitizeFilename(a[n..]), SanitizeFilename(b);
    assert "_" + (x + y) == ("_" + x) + y;
  }

  /** The case of `SanitizeConcat` where all of `a` is one disallowed run. */
  lemma WholeRun(a: string, b: string)
    requires |a| > 0 && |b| > 0 && !Allowed(a[0]) && RunLength(a) == |a|
    requires Allowed(a[|a| - 1]) || Allowed(b[0])
    ensures SanitizeFilename(a + b) == SanitizeFilename(a) + SanitizeFilename(b)
  {
    assert !Allowed(a[|a| - 1]);
    assert BadRun(a);
    RunBecomesOneUnderscore(a, b);
    assert a[|a|..] == [];
    assert SanitizeFilename(a) == "_" + SanitizeFilename([]);
  }

  lemma {:induction false} RunLengthPrefix(a: string, b: string)
    requires RunLength(a) < |a|
    ensures RunLength(a + b) == RunLength(a)
  {
    if |a| > 0 && !Allowed(a[0]) {
      assert (a + b)[1..] == a[1..] + b;
      RunLengthPrefix(a[1..], b);
    }
  }

  /** The result only holds allowed characters. */
  lemma {:induction false} SanitizeClean(s: string)
    ensures AllAllowed(SanitizeFilename(s))
    decreases |s|
  {
    if |s| > 0 {
      if Allowed(s[0]) {
        KeepStep(s);
        SanitizeClean(s[1..]);
      } else {
        RunStep(s);
        SanitizeClean(s[RunLength(s)..]);
      }
    }
  }

  /** A name made only of allowed characters is left as it is. */
  lemma {:induction false} SanitizeKeepsClean(s: string)
    requires AllAllowed(s)
    ensures SanitizeFilename(s) == s
    decreases |s|
  {
    if |s| > 0 {
      SanitizeKeepsClean(s[1..]);
      KeepStep(s);
    }
  }

  /** Sanitising twice is sanitising once. */
  lemma SanitizeIdempotent(s: string)
    ensures SanitizeFilename(SanitizeFilename(s)) == SanitizeFilename(s)
  {
    SanitizeClean(s);
    SanitizeKeepsClean(SanitizeFilename(s));
  }
}

=== FILE: service.dfy ===
/** The column step of `fetch_for_ticker` in the EODHD service: the rows the
    client returned are reshaped so that every row has the first row's keys,
    with "date" moved to the front. The client call itself is replaced by its
    result, the input sequence of rows. */
module Service {
  import opened Wrappers
  import opened JsonValue

  /** The keys without any "date" entry, in their original order. */
  function WithoutDate(keys: seq<string>): (r: seq<string>)
    ensures |r| <= |keys|
    ensures "date" !in r
    ensures forall k :: k in r <==> k in keys && k != "date"
    ensures "date" !in keys ==> r == keys
    ensures |keys| == 1 ==> r == (if keys[0] == "date" then [] else keys)
  {
    if |keys| == 0 then []
    else if keys[0] == "date" then WithoutDate(keys[1..])
    else [keys[0]] + WithoutDate(keys[1..])
  }

  /** The column order: "date" first when present, the other keys after it in
      their original order. */
  function DateFirst(keys: seq<string>): (r: seq<string>)
    ensures "date" in keys ==> |r| > 0 && r[0] == "date" && r[1..] == WithoutDate(keys)
    ensures "date" !in keys ==> r == keys
    ensures forall k :: k in r <==> k in keys
  {
    if "date" in keys then ["date"] + WithoutDate(keys) else keys
  }

  /** `{k: r.get(k) for k in keys}`: the row's value for each key, `None` where
      the row has none. */
  function Project(row: Dict, keys: seq<string>): (r: Dict)
    ensures Keys(r) == keys
    ensures forall i :: 0 <= i < |keys| ==> r[i].1 == GetOr(row, keys[i], JNull)
  {
    seq(|keys|, i requires 0 <= i < |keys| => (keys[i], GetOr(row, keys[i], JNull)))
  }

  /** The reshaping of `fetch_for_ticker`: an empty list is returned as it is;
      otherwise every row is projected onto the first row's keys in
      `DateFirst` order. */
  function Reshape(rows: seq<Dict>): (r: seq<Dict>)
    ensures |r| == |rows|
    ensures |rows| == 0 ==> r == rows
    ensures forall i :: 0 <= i < |r| ==> Keys(r[i]) == DateFirst(Keys(rows[0]))
    ensures forall i, j :: 0 <= i < |r| && 0 <= j < |r[i]| ==> r[i][j].1 == GetOr(rows[i], r[i][j].0, JNull)
  {
    if |rows| == 0 then rows
    else
      var keys := DateFirst(Keys(rows[0]));
      seq(|rows|, i requires 0 <= i < |rows| => Project(rows[i], keys))
  }

  /** The columns are a rearrangement of the first row's keys: removing
      "date" loses exactly its occurrences. */
  lemma {:induction false} WithoutDateCount(keys: seq<string>)
    ensures multiset(WithoutDate(keys)) == multiset(keys)[("date") := 0]
  {
    if |keys| > 0 {
      WithoutDateCount(keys[1..]);
      assert keys == [keys[0]] + keys[1..];
    }
  }

  /** A row with distinct keys (as every Python dict has) keeps all of them,
      each exactly once, when "date" is moved to the front. */
  lemma DateFirstPermutes(keys: seq<string>)
    requires multiset(keys)["date"] <= 1
    ensures multiset(DateFirst(keys)) == multiset(keys)
  {
    WithoutDateCount(keys);
    if "date" in keys {
      assert multiset(keys)["date"] == 1;
      assert multiset(DateFirst(keys)) == multiset{"date"} + multiset(keys)[("date") := 0];
    }
  }

  /** The order of the non-date keys is kept: removing "date" from the new
      order gives the same keys in the same order as removing it from the old. */
  lemma {:induction false} DateFirstKeepsRelativeOrder(keys: seq<string>)
    ensures WithoutDate(DateFirst(keys)) == WithoutDate(keys)
  {
    if "date" in keys {
      var rest := WithoutDate(keys);
      assert DateFirst(keys) == ["date"] + rest;
      assert (["date"] + rest)[1..] == rest;
      assert WithoutDate(DateFirst(keys)) == WithoutDate(rest);
    }
  }

  /** The filter works key by key: removing "date" from two pieces laid end
      to end is removing it from each piece. With the one-key case in
      `WithoutDate`'s contract this fixes the result, order included. */
  lemma {:induction false} WithoutDateAppend(a: seq<string>, b: seq<string>)
    ensures WithoutDate(a + b) == WithoutDate(a) + WithoutDate(b)
  {
    if |a| == 0 {
      assert a + b == b;
    } else {
      assert (a + b)[0] == a[0];
      assert (a + b)[1..] == a[1..] + b;
      WithoutDateAppend(a[1..], b);
    }
  }

  /** For a row whose keys are distinct, the new order is "date" followed by
      the keys before it and then the keys after it, each in their old order. */
  lemma DateFirstMovesDate(a: seq<string>, b: seq<string>)
    requires "date" !in a && "date" !in b
    ensures DateFirst(a + ["date"] + b) == ["date"] + a + b
  {
    var keys := a + ["date"] + b;
    assert keys[|a|] == "date";
    WithoutDateAppend(a + ["date"], b);
    WithoutDateAppend(a, ["date"]);
  }

  /** Reshaping twice is reshaping once. */
  lemma ReshapeIdempotent(rows: seq<Dict>)
    ensures Reshape(Reshape(rows)) == Reshape(rows)
  {
    if |rows| > 0 {
      var keys := DateFirst(Keys(rows[0]));
      var once := Reshape(rows);
      DateFirstStable(keys);
      forall i | 0 <= i < |rows|
        ensures Project(once[i], keys) == once[i]
      {
        ProjectStable(rows[i], keys);
      }
    }
  }

  /** Moving "date" to the front of keys that already start with it changes nothing. */
  lemma DateFirstStable(keys: seq<string>)
    ensures DateFirst(DateFirst(keys)) == DateFirst(keys)
  {
    if "date" in keys {
      var rest := WithoutDate(keys);
      assert ["date"] + rest == DateFirst(keys);
      assert (["date"] + rest)[1..] == rest;
      assert WithoutDate(["date"] + rest) == WithoutDate(rest);
    }
  }

  /** Projecting a projected row onto the same keys gives it back. */
  lemma ProjectStable(row: Dict, keys: seq<string>)
    ensures Project(Project(row, keys), keys) == Project(row, keys)
  {
    var p := Project(row, keys);
    forall i | 0 <= i < |keys|
      ensures GetOr(p, keys[i], JNull) == GetOr(row, keys[i], JNull)
    {
      GetFirst(p, keys, i, row);
    }
  }

  lemma GetFirst(p: Dict, keys: seq<string>, i: nat, row: Dict)
    requires p == Project(row, keys) && i < |keys|
    ensures GetOr(p, keys[i], JNull) == GetOr(row, keys[i], JNull)
  {
    var k := keys[i];
    assert HasKey(p, k) by { assert Keys(p)[i] == k; }
    var v := Get(p, k).value;
    var j :| 0 <= j < |p| && p[j] == (k, v);
    assert keys[j] == k;
  }
}

=== FILE: symbols.dfy ===
/** `load_symbols` of the price watcher: one JSON record per symbol file,
    folded into a table keyed by the record's upper-case symbol. Globbing and
    reading the directory are replaced by their result: the sequence of file
    contents, each already parsed, or `None` where reading or parsing failed. */
module Symbols {
  import opened Wrappers
  import opened PyText
  import opened JsonValue


  /** A symbol in the form `SymbolOf` produces: stripped, and upper case. */
  predicate Canonical(s: string) {
    Trimmed(s) && forall i :: 0 <= i < |s| ==> !IsLowerAscii(s[i])
  }

  /** Canonicalising a canonical symbol leaves it as it is. */
  lemma CanonicalFixed(s: string)
    requires Canonical(s)
    ensures Upper(Strip(s)) == s
  {
    assert Strip(s) == s;
    assert Upper(s) == s;
  }

  lemma UpperCanonical(t: string)
    requires Trimmed(t)
    ensures Canonical(Upper(t))
  {
    var s := Upper(t);
    if |s| > 0 {
      assert IsSpace(s[0]) <==> IsSpace(t[0]);
      assert IsSpace(s[|s| - 1]) <==> IsSpace(t[|t| - 1]);
    }
  }

  /** `str(data.get("symbol", "")).strip().upper()`. */
  function SymbolOf(data: Dict): (s: string)
    ensures Canonical(s)
  {
    UpperCanonical(Strip(PyStr(GetOr(data, "symbol", JStr("")))));
    Upper(Strip(PyStr(GetOr(data, "symbol", JStr("")))))
  }

  /** `d.setdefault(k, v)`: adds the entry at the end only when `k` is absent. */
  function SetDefault(d: Dict, k: string, v: Json): (r: Dict)
    ensures HasKey(r, k)
    ensures HasKey(d, k) ==> r == d
    ensures !HasKey(d, k) ==> r == d + [(k, v)]
  {
    if HasKey(d, k) then d
    else
      assert Keys(d + [(k, v)])[|d|] == k;
      d + [(k, v)]
  }

  /** The record with the three routing defaults applied. */
  function Normalize(data: Dict): (r: Dict)
    ensures |data| <= |r| <= |data| + 3 && r[..|data|] == data
  {
    SetDefault(SetDefault(SetDefault(data, "exchange", JStr("SMART")), "currency", JStr("USD")), "secType", JStr("STK"))
  }

  /** Lookup in a dict extended at the end only finds the new entry when the
      key was not already there. */
  lemma GetAppend(d: Dict, e: (string, Json), k: string)
    ensures Get(d + [e], k) == if HasKey(d, k) then Get(d, k) else if e.0 == k then Some(e.1) else None
    decreases |d|
  {
    if |d| > 0 {
      assert (d + [e])[1..] == d[1..] + [e];
      assert Keys(d) == [d[0].0] + Keys(d[1..]);
      GetAppend(d[1..], e, k);
    } else {
      assert d + [e] == [e];
      assert Keys([e]) == [e.0];
    }
  }

  lemma HasKeyAppend(d: Dict, e: (string, Json), k: string)
    ensures HasKey(d + [e], k) <==> HasKey(d, k) || e.0 == k
  {
    assert Keys(d + [e]) == Keys(d) + [e.0];
  }

  /** The routing fields are filled in only when absent; every other key, and
      every routing field already present, keeps its value. */
  lemma NormalizeDefaults(data: Dict, k: string)
    ensures k == "exchange" ==> Get(Normalize(data), k) == Some(GetOr(data, k, JStr("SMART")))
    ensures k == "currency" ==> Get(Normalize(data), k) == Some(GetOr(data, k, JStr("USD")))
    ensures k == "secType" ==> Get(Normalize(data), k) == Some(GetOr(data, k, JStr("STK")))
    ensures k != "exchange" && k != "currency" && k != "secType" ==> Get(Normalize(data), k) == Get(data, k)
  {
    var d1 := SetDefault(data, "exchange", JStr("SMART"));
    var d2 := SetDefault(d1, "currency", JStr("USD"));
    if !HasKey(data, "exchange") {
      GetAppend(data, ("exchange", JStr("SMART")), k);
      HasKeyAppend(data, ("exchange", JStr("SMART")), k);
    }
    if !HasKey(d1, "currency") {
      GetAppend(d1, ("currency", JStr("USD")), k);
      HasKeyAppend(d1, ("currency", JStr("USD")), k);
    }
    if !HasKey(d2, "secType") {
      GetAppend(d2, ("secType", JStr("STK")), k);
    }
  }

  /** What one file contributes: its symbol and normalised record, or nothing
      when the file is unreadable, does not hold an object, or names an empty
      symbol (the source logs a warning and skips it). */
  function Entry(file: Option<Json>): (r: Option<(string, Dict)>)
    ensures r.Some? <==> file.Some? && file.value.JObject? && SymbolOf(file.value.entries) != ""
    ensures r.Some? ==> r.value == (SymbolOf(file.value.entries), Normalize(file.value.entries))
    ensures r.Some? ==> r.value.0 != "" && Canonical(r.value.0)
  {
    if file.Some? && file.value.JObject? then
      var sym := SymbolOf(file.value.entries);
      if sym == "" then None else Some((sym, Normalize(file.value.entries)))
    else None
  }

  /** True when `e` is an entry for `sym`. */
  predicate For(e: Option<(string, Dict)>, sym: string) {
    e.Some? && e.value.0 == sym
  }

  /** The table built from the entries in order, a later entry replacing an
      earlier one for the same symbol. */
  function Table(entries: seq<Option<(string, Dict)>>): (r: map<string, Dict>)
    decreases |entries|
  {
    if |entries| == 0 then map[]
    else
      var out := Table(entries[..|entries| - 1]);
      match entries[|entries| - 1]
      case Some((sym, d)) => out[sym := d]
      case None => out
  }

  /** `load_symbols` over the parsed files, in the order they are visited. */
  function LoadSymbols(files: seq<Option<Json>>): (r: map<string, Dict>)
    ensures forall k :: k in r ==> k != "" && Canonical(k)
  {
    var entries := seq(|files|, i requires 0 <= i < |files| => Entry(files[i]));
    assert forall i :: 0 <= i < |entries| && entries[i].Some? ==> entries[i].value.0 != "" && Canonical(entries[i].value.0);
    TableKeyShape(entries);
    Table(entries)
  }

  /** A table built from entries with non-empty canonical symbols has only
      such keys. */
  lemma {:induction false} TableKeyShape(entries: seq<Option<(string, Dict)>>)
    requires forall i :: 0 <= i < |entries| && entries[i].Some? ==> entries[i].value.0 != "" && Canonical(entries[i].value.0)
    ensures forall k :: k in Table(entries) ==> k != "" && Canonical(k)
    decreases |entries|
  {
    if |entries| > 0 {
      var pre := entries[..|entries| - 1];
      assert forall i :: 0 <= i < |pre| ==> pre[i] == entries[i];
      TableKeyShape(pre);
    }
  }

  lemma {:induction false} TableKeys(entries: seq<Option<(string, Dict)>>, sym: string)
    ensures sym in Table(entries) <==> exists i :: 0 <= i < |entries| && For(entries[i], sym)
    decreases |entries|
  {
    if |entries| > 0 {
      var n := |entries| - 1;
      var pre := entries[..n];
      TableKeys(pre, sym);
      assert forall i :: 0 <= i < n ==> pre[i] == entries[i];
      if exists i :: 0 <= i < |entries| && For(entries[i], sym) {
        var i :| 0 <= i < |entries| && For(entries[i], sym);
        if i < n {
          assert For(pre[i], sym);
        }
      }
    }
  }

  lemma {:induction false} TableLastWins(entries: seq<Option<(string, Dict)>>, i: int, sym: string)
    requires 0 <= i < |entries| && For(entries[i], sym)
    requires forall j :: i < j < |entries| ==> !For(entries[j], sym)
    ensures sym in Table(entries) && Table(entries)[sym] == entries[i].value.1
    decreases |entries|
  {
    var n := |entries| - 1;
    var pre := entries[..n];
    if i < n {
      assert pre[i] == entries[i];
      assert forall j :: i < j < |pre| ==> pre[j] == entries[j];
      TableLastWins(pre, i, sym);
      assert !For(entries[n], sym);
    }
  }

  /** Every key of the table is the symbol of some file's record, and every
      record's non-empty symbol is a key. */
  lemma LoadSymbolsKeys(files: seq<Option<Json>>, sym: string)
    ensures sym in LoadSymbols(files) <==> exists i :: 0 <= i < |files| && For(Entry(files[i]), sym)
  {
    var entries := seq(|files|, i requires 0 <= i < |files| => Entry(files[i]));
    TableKeys(entries, sym);
    if sym in LoadSymbols(files) {
      var i :| 0 <= i < |entries| && For(entries[i], sym);
      assert For(Entry(files[i]), sym);
    } else {
      forall i | 0 <= i < |files|
        ensures !For(Entry(files[i]), sym)
      {
        assert entries[i] == Entry(files[i]);
      }
    }
  }

  /** No key is empty. */
  lemma LoadSymbolsNoEmptyKey(files: seq<Option<Json>>)
    ensures "" !in LoadSymbols(files)
  {
    LoadSymbolsKeys(files, "");
  }

  /** Under each symbol the table holds the normalised form of the LAST
      record that names it: later files override earlier ones. */
  lemma LoadSymbolsLastWins(files: seq<Option<Json>>, i: int, sym: string)
    requires 0 <= i < |files| && For(Entry(files[i]), sym)
    requires forall j :: i < j < |files| ==> !For(Entry(files[j]), sym)
    ensures sym in LoadSymbols(files) && LoadSymbols(files)[sym] == Normalize(files[i].value.entries)
  {
    var entries := seq(|files|, i requires 0 <= i < |files| => Entry(files[i]));
    TableLastWins(entries, i, sym);
  }

  /** Every key is in canonical form: stripped and with no lower-case letter,
      so a key's own canonical form is itself. */
  lemma LoadSymbolsKeyShape(files: seq<Option<Json>>, sym: string)
    requires sym in LoadSymbols(files)
    ensures sym != "" && Canonical(sym) && Upper(Strip(sym)) == sym
  {
    LoadSymbolsKeys(files, sym);
    var i :| 0 <= i < |files| && For(Entry(files[i]), sym);
    var e := Entry(files[i]);
    assert e.value.0 == sym;
    CanonicalFixed(sym);
  }
}

=== FILE: watcher.dfy ===
/** The per-symbol alert gate of the price watcher (`PriceWatcher` in
    ibkr_price_watcher/watcher.py): for each price tick it decides whether the
    move since the last sent price is large enough and whether the symbol is
    still inside its throttle window, and on acceptance records the new price
    and time and emits an alert.

    The two dictionaries `last_sent_price` and `last_sent_time` become the
    immutable `State`; `time.time()` becomes the `now` that accompanies each
    tick; an exception raised while handling a tick becomes a `Failed` outcome. */
module Watcher {
  import opened Wrappers
  import opened JsonValue

  type Symbol = string

  /** One price field of a market-data ticker: `None`, NaN, or a number. */
  datatype Reading = Missing | NaN | Price(value: real)

  /** A ticker update: the contract's symbol, `ticker.last`, and what
      `ticker.marketPrice()` would return. */
  datatype Tick = Tick(symbol: Symbol, last: Reading, marketPrice: Reading)

  /** A tick together with the clock reading at which it is handled. */
  datatype Arrival = Arrival(tick: Tick, now: real)

  /** What the watcher reads from its configuration: `throttle_seconds` and the
      two `defaults` thresholds as `cfg.get` finds them, the webhook URL, the
      per-symbol records keyed by upper-case symbol, and Python's `float()` on
      text (which answers `None` where it raises). */
  datatype Config = Config(
    throttleSeconds: Option<real>,
    defaultMinAbs: Option<real>,
    defaultMinPct: Option<real>,
    webhookUrl: Json,
    symbols: map<Symbol, Dict>,
    floatOfText: string -> Option<real>)

  /** `last_sent_price` and `last_sent_time`. */
  datatype State = State(lastSentPrice: map<Symbol, real>, lastSentTime: map<Symbol, real>)

  /** The state of a freshly constructed watcher. */
  const Initial := State(map[], map[])

  /** Why handling a tick raised: `self.symbols[sym]` on an unknown symbol
      (`KeyError`), or a threshold override `float()` cannot convert. */
  datatype Fault = UnknownSymbol | BadThreshold

  /** An emitted alert: the display label, the accepted price, and whether it
      is also posted to the webhook (it is always printed). */
  datatype Alert = Alert(symbol: Symbol, display: string, price: real, viaWebhook: bool)

  datatype Outcome = Discarded | Rejected | Sent(alert: Alert) | Failed(fault: Fault)

  /** The state after one tick and what became of the tick. */
  datatype Step = Step(state: State, outcome: Outcome)

  /** Everything a batch produced: the final state, the alerts in order, and
      the symbols of the ticks whose handling raised (each one is logged). */
  datatype Batch = Batch(state: State, sent: seq<Alert>, failed: seq<Symbol>)

  function Abs(x: real): real {
    if x < 0.0 then -x else x
  }

  function Lookup(m: map<Symbol, real>, s: Symbol): Option<real> {
    if s in m then Some(m[s]) else None
  }

  /** Everything the state records about one symbol. */
  function EntryOf(st: State, s: Symbol): (Option<real>, Option<real>) {
    (Lookup(st.lastSentPrice, s), Lookup(st.lastSentTime, s))
  }

  /** Both dictionaries are written together, so they have the same keys. */
  predicate Consistent(st: State) {
    st.lastSentPrice.Keys == st.lastSentTime.Keys
  }

  /** The state once a tick at `price` has been accepted at time `now`. */
  function Commit(st: State, sym: Symbol, price: real, now: real): State {
    State(st.lastSentPrice[sym := price], st.lastSentTime[sym := now])
  }

  // ---------- price selection ----------

  /** `last` if it is not `None`, otherwise `marketPrice()`; a `None` or NaN
      result means the tick carries no price. A NaN `last` does not fall back. */
  function SelectPrice(t: Tick): (r: Option<real>)
    ensures r.Some? <==> t.last.Price? || (t.last.Missing? && t.marketPrice.Price?)
    ensures t.last.Price? ==> r == Some(t.last.value)
    ensures t.last.Missing? && t.marketPrice.Price? ==> r == Some(t.marketPrice.value)
    ensures t.last.NaN? ==> r.None?
  {
    var p := if t.last.Missing? then t.marketPrice else t.last;
    if p.Price? then Some(p.value) else None
  }

  // ---------- thresholds ----------

  /** One threshold: the symbol's override converted by `float()` (which may
      raise), else the configured default, else 0. */
  function MinSetting(profile: Dict, key: string, dflt: Option<real>, floatOfText: string -> Option<real>): Option<real> {
    match Get(profile, key)
    case Some(v) => PyFloat(v, floatOfText)
    case None => Some(dflt.GetOr(0.0))
  }

  /** The absolute and percent thresholds in force for a known symbol, or
      `None` when converting one of them raises. */
  function Thresholds(cfg: Config, sym: Symbol): (r: Option<(real, real)>)
    requires sym in cfg.symbols
    ensures r.Some? && !HasKey(cfg.symbols[sym], "min_change_abs") ==> r.value.0 == cfg.defaultMinAbs.GetOr(0.0)
    ensures r.Some? && !HasKey(cfg.symbols[sym], "min_change_pct") ==> r.value.1 == cfg.defaultMinPct.GetOr(0.0)
    ensures r.Some? && HasKey(cfg.symbols[sym], "min_change_abs") ==>
      Some(r.value.0) == PyFloat(Get(cfg.symbols[sym], "min_change_abs").value, cfg.floatOfText)
    ensures r.Some? && HasKey(cfg.symbols[sym], "min_change_pct") ==>
      Some(r.value.1) == PyFloat(Get(cfg.symbols[sym], "min_change_pct").value, cfg.floatOfText)
    ensures r.None? <==>
      || (HasKey(cfg.symbols[sym], "min_change_abs") && PyFloat(Get(cfg.symbols[sym], "min_change_abs").value, cfg.floatOfText).None?)
      || (HasKey(cfg.symbols[sym], "min_change_pct") && PyFloat(Get(cfg.symbols[sym], "min_change_pct").value, cfg.floatOfText).None?)
  {
    var profile := cfg.symbols[sym];
    var minAbs := MinSetting(profile, "min_change_abs", cfg.defaultMinAbs, cfg.floatOfText);
    var minPct := MinSetting(profile, "min_change_pct", cfg.defaultMinPct, cfg.floatOfText);
    if minAbs.Some? && minPct.Some? then Some((minAbs.value, minPct.value)) else None
  }

  /** `abs_change / prev * 100`, or 0 when `prev` is zero. */
  function PercentChange(absChange: real, prev: real): real {
    if prev != 0.0 then absChange / prev * 100.0 else 0.0
  }

  /** A move from `prev` to `price` is significant when it is at least
      `minAbs` and, if `minPct` is positive, when `prev` is positive and the
      move is at least `minPct` percent of it. Stated without division. */
  predicate Significant(prev: real, price: real, minAbs: real, minPct: real) {
    && Abs(price - prev) >= minAbs
    && (minPct <= 0.0 || (prev > 0.0 && 100.0 * Abs(price - prev) >= minPct * prev))
  }

  lemma MulStrict(x: real, y: real, k: real)
    requires k > 0.0
    ensures x < y <==> x * k < y * k
  {
    if x < y {
      assert (y - x) * k > 0.0;
    } else {
      assert (x - y) * k >= 0.0;
    }
  }

  /** The two comparisons of `_passes_thresholds` against a known previous
      price: rejected when the absolute change is below `minAbs`, or when
      `minPct` is positive and the percent change is below it. */
  function MovePasses(prev: real, price: real, minAbs: real, minPct: real): (r: bool)
    ensures r <==> Significant(prev, price, minAbs, minPct)
  {
    var absChange := Abs(price - prev);
    var pctChange := PercentChange(absChange, prev);
    if absChange < minAbs then false
    else if minPct > 0.0 && pctChange < minPct then
      assert prev > 0.0 ==> 100.0 * absChange < minPct * prev by {
        if prev > 0.0 {
          MulStrict(pctChange, minPct, prev);
          assert pctChange * prev == 100.0 * absChange;
        }
      }
      false
    else
      assert minPct > 0.0 ==> prev > 0.0 && 100.0 * absChange >= minPct * prev by {
        if minPct > 0.0 {
          if prev <= 0.0 {
            assert false;
          }
          MulStrict(pctChange, minPct, prev);
          assert pctChange * prev == 100.0 * absChange;
        }
      }
      true
  }

  /** `_passes_thresholds`: with no last sent price the tick passes whatever
      the thresholds; otherwise the symbol's record must exist and its
      thresholds convert, and the move must be significant. */
  function PassesThresholds(cfg: Config, st: State, sym: Symbol, price: real): (r: Result<bool, Fault>)
    ensures sym !in st.lastSentPrice ==> r == Ok(true)
    ensures sym in st.lastSentPrice && sym !in cfg.symbols ==> r == Err(UnknownSymbol)
    ensures sym in st.lastSentPrice && sym in cfg.symbols ==>
      && (r.Ok? <==> Thresholds(cfg, sym).Some?)
      && (r.Err? ==> r.error == BadThreshold)
      && (r.Ok? ==> (r.value <==> Significant(st.lastSentPrice[sym], price, Thresholds(cfg, sym).value.0, Thresholds(cfg, sym).value.1)))
  {
    if sym !in st.lastSentPrice then Ok(true)
    else if sym !in cfg.symbols then Err(UnknownSymbol)
    else
      match Thresholds(cfg, sym)
      case None => Err(BadThreshold)
      case Some((minAbs, minPct)) => Ok(MovePasses(st.lastSentPrice[sym], price, minAbs, minPct))
  }

  // ---------- throttle ----------

  /** `_throttled`: disabled when `throttle_seconds` (default 0) is not
      positive; otherwise throttled while less than that many seconds have
      passed since the last sent time, which is 0 for a symbol never sent. */
  function Throttled(cfg: Config, st: State, sym: Symbol, now: real): (r: bool)
    ensures cfg.throttleSeconds.GetOr(0.0) <= 0.0 ==> !r
    ensures sym in st.lastSentTime ==> (r <==> cfg.throttleSeconds.GetOr(0.0) > 0.0 && now - st.lastSentTime[sym] < cfg.throttleSeconds.GetOr(0.0))
    ensures sym !in st.lastSentTime ==> (r <==> cfg.throttleSeconds.GetOr(0.0) > now && cfg.throttleSeconds.GetOr(0.0) > 0.0)
  {
    var throttle := cfg.throttleSeconds.GetOr(0.0);
    if throttle <= 0.0 then false
    else
      var lastTime := Lookup(st.lastSentTime, sym).GetOr(0.0);
      now - lastTime < throttle
  }

  // ---------- label and message ----------

  /** `_symbol_label`: "nick (SYM)" when the record has a truthy nickname,
      else the bare symbol; a symbol without a record raises. */
  function Label(cfg: Config, sym: Symbol): (r: Result<string, Fault>)
    ensures r.Ok? <==> sym in cfg.symbols
    ensures r.Err? ==> r.error == UnknownSymbol
    ensures r.Ok? ==> (r.value == sym <==> !Truthy(GetOr(cfg.symbols[sym], "nickname", JNull)))
    ensures r.Ok? && r.value != sym ==>
      var nick := PyStr(GetOr(cfg.symbols[sym], "nickname", JNull));
      && |r.value| == |nick| + |sym| + 3
      && r.value[..|nick|] == nick
      && r.value[|nick|..] == " (" + sym + ")"
  {
    if sym !in cfg.symbols then Err(UnknownSymbol)
    else
      var nick := GetOr(cfg.symbols[sym], "nickname", JNull);
      if Truthy(nick) then
        var suffix := " (" + sym + ")";
        var l := PyStr(nick) + suffix;
        assert |l| == |PyStr(nick)| + |suffix| && |suffix| == |sym| + 3;
        assert l[..|PyStr(nick)|] == PyStr(nick) && l[|PyStr(nick)|..] == suffix;
        Ok(l)
      else Ok(sym)
  }

  const MessageHead := "\U{1F4B9} **"
  const MessageMiddle := "** last price: **"
  const MessageTail := "**"

  /** The alert text: the label in bold, then the price as `fmt4` renders it
      (the source formats it with four decimals). */
  function Content(a: Alert, fmt4: real -> string): (m: string)
    ensures |m| == |MessageHead| + |a.display| + |MessageMiddle| + |fmt4(a.price)| + |MessageTail|
    ensures m[..|MessageHead|] == MessageHead
    ensures m[|MessageHead|..|MessageHead| + |a.display|] == a.display
    ensures m[|MessageHead| + |a.display|..|MessageHead| + |a.display| + |MessageMiddle|] == MessageMiddle
    ensures m[|m| - |MessageTail| - |fmt4(a.price)|..|m| - |MessageTail|] == fmt4(a.price)
    ensures m[|m| - |MessageTail|..] == MessageTail
  {
    var price := fmt4(a.price);
    var m := MessageHead + a.display + MessageMiddle + price + MessageTail;
    assert m == (MessageHead + a.display) + (MessageMiddle + price + MessageTail);
    assert m == (MessageHead + a.display + MessageMiddle) + price + MessageTail;
    m
  }

  // ---------- one tick ----------

  /** `on_tick`: pick the price, apply the threshold check and then the
      throttle, commit the new price and time, then build the alert. The
      label is built after the commit, so a symbol without a record is
      committed on its first tick before the lookup raises. */
  function OnTick(cfg: Config, st: State, t: Tick, now: real): (r: Step)
    ensures r.outcome.Discarded? <==> SelectPrice(t).None?
    ensures r.outcome.Discarded? || r.outcome.Rejected? ==> r.state == st
    ensures r.outcome.Sent? <==>
      && SelectPrice(t).Some?
      && PassesThresholds(cfg, st, t.symbol, SelectPrice(t).value) == Ok(true)
      && !Throttled(cfg, st, t.symbol, now)
      && t.symbol in cfg.symbols
    ensures r.outcome.Sent? ==>
      && r.outcome.alert.price == SelectPrice(t).value
      && r.outcome.alert.symbol == t.symbol
      && Label(cfg, t.symbol) == Ok(r.outcome.alert.display)
      && (r.outcome.alert.viaWebhook <==> Truthy(cfg.webhookUrl))
      && r.state == Commit(st, t.symbol, SelectPrice(t).value, now)
    ensures r.outcome.Rejected? <==>
      && SelectPrice(t).Some?
      && PassesThresholds(cfg, st, t.symbol, SelectPrice(t).value).Ok?
      && (!PassesThresholds(cfg, st, t.symbol, SelectPrice(t).value).value || Throttled(cfg, st, t.symbol, now))
    ensures SelectPrice(t).Some? && PassesThresholds(cfg, st, t.symbol, SelectPrice(t).value).Err? ==>
      r == Step(st, Failed(PassesThresholds(cfg, st, t.symbol, SelectPrice(t).value).error))
    ensures
      && SelectPrice(t).Some?
      && PassesThresholds(cfg, st, t.symbol, SelectPrice(t).value) == Ok(true)
      && !Throttled(cfg, st, t.symbol, now)
      && t.symbol !in cfg.symbols
      ==> r == Step(Commit(st, t.symbol, SelectPrice(t).value, now), Failed(UnknownSymbol))
    ensures forall s :: s != t.symbol ==> EntryOf(r.state, s) == EntryOf(st, s)
    ensures st.lastSentPrice.Keys <= r.state.lastSentPrice.Keys
    ensures Consistent(st) ==> Consistent(r.state)
  {
    match SelectPrice(t)
    case None => Step(st, Discarded)
    case Some(price) =>
      match PassesThresholds(cfg, st, t.symbol, price)
      case Err(f) => Step(st, Failed(f))
      case Ok(passes) =>
        if !passes || Throttled(cfg, st, t.symbol, now) then Step(st, Rejected)
        else
          var st' := Commit(st, t.symbol, price, now);
          match Label(cfg, t.symbol)
          case Err(f) => Step(st', Failed(f))
          case Ok(display) => Step(st', Sent(Alert(t.symbol, display, price, Truthy(cfg.webhookUrl))))
  }

  // ---------- a batch of ticks ----------

  /** Folds one tick's step into the batch so far. */
  function Absorb(b: Batch, step: Step, sym: Symbol): Batch {
    Batch(step.state,
          b.sent + (if step.outcome.Sent? then [step.outcome.alert] else []),
          b.failed + (if step.outcome.Failed? then [sym] else []))
  }

  /** `on_pending_tickers`: the ticks in order, each against the state the
      previous ones left; a tick whose handling raises is logged and the
      loop carries on with the next one. */
  function RunBatch(cfg: Config, st: State, arrivals: seq<Arrival>): (b: Batch)
    ensures |b.sent| + |b.failed| <= |arrivals|
    ensures st.lastSentPrice.Keys <= b.state.lastSentPrice.Keys
    ensures Consistent(st) ==> Consistent(b.state)
    ensures forall s :: (forall i :: 0 <= i < |arrivals| ==> arrivals[i].tick.symbol != s) ==> EntryOf(b.state, s) == EntryOf(st, s)
    decreases |arrivals|
  {
    if |arrivals| == 0 then Batch(st, [], [])
    else
      var a := arrivals[|arrivals| - 1];
      var b := RunBatch(cfg, st, arrivals[..|arrivals| - 1]);
      Absorb(b, OnTick(cfg, b.state, a.tick, a.now), a.tick.symbol)
  }

  /** The batch callback as a loop over the ticks. */
  method OnPendingTickers(cfg: Config, st: State, arrivals: seq<Arrival>) returns (b: Batch)
    ensures b == RunBatch(cfg, st, arrivals)
  {
    b := Batch(st, [], []);
    var i := 0;
    while i < |arrivals|
      invariant 0 <= i <= |arrivals|
      invariant b == RunBatch(cfg, st, arrivals[..i])
    {
      var a := arrivals[i];
      assert arrivals[..i + 1][..i] == arrivals[..i];
      b := Absorb(b, OnTick(cfg, b.state, a.tick, a.now), a.tick.symbol);
      i := i + 1;
    }
    assert arrivals[..i] == arrivals;
  }
}

=== FILE: watcher_props.dfy ===
/** Properties of the alert gate across ticks and batches: the throttle
    window, isolation between symbols, isolation of failing ticks, and
    agreement with a division-free reference statement of the gate. */
module WatcherProperties {
  import opened Wrappers
  import opened JsonValue
  import opened Watcher

  // ---------- single-tick facts ----------

  /** With a previous price of 0 and a positive percent threshold, no price
      passes: the percent change is taken to be 0 rather than divided out. */
  lemma ZeroPreviousRejectsUnderPercent(cfg: Config, st: State, sym: Symbol, price: real)
    requires sym in st.lastSentPrice && st.lastSentPrice[sym] == 0.0
    requires sym in cfg.symbols && Thresholds(cfg, sym).Some? && Thresholds(cfg, sym).value.1 > 0.0
    ensures PassesThresholds(cfg, st, sym, price) == Ok(false)
  {
  }

  /** With both thresholds at zero, a repeated identical price still passes. */
  lemma ZeroThresholdsPassSamePrice(cfg: Config, st: State, sym: Symbol)
    requires sym in st.lastSentPrice
    requires sym in cfg.symbols && Thresholds(cfg, sym) == Some((0.0, 0.0))
    ensures PassesThresholds(cfg, st, sym, st.lastSentPrice[sym]) == Ok(true)
  {
  }

  /** After an alert at `now`, a later tick for the same symbol that arrives
      less than `throttle_seconds` later is not sent and changes nothing,
      however far the price has moved. */
  lemma ThrottleWindow(cfg: Config, st: State, t: Tick, now: real, t2: Tick, now2: real)
    requires OnTick(cfg, st, t, now).outcome.Sent?
    requires t2.symbol == t.symbol
    requires cfg.throttleSeconds.GetOr(0.0) > 0.0 && now2 - now < cfg.throttleSeconds.GetOr(0.0)
    ensures var st1 := OnTick(cfg, st, t, now).state;
      !OnTick(cfg, st1, t2, now2).outcome.Sent? && OnTick(cfg, st1, t2, now2).state == st1
  {
    var st1 := OnTick(cfg, st, t, now).state;
    assert st1.lastSentTime[t.symbol] == now;
    assert Throttled(cfg, st1, t2.symbol, now2);
  }

  /** Once `throttle_seconds` have passed since an alert, the next tick for
      the same symbol is sent again when its move from the alerted price is
      significant, and it becomes the new baseline. */
  lemma ThrottleReopens(cfg: Config, st: State, t: Tick, now: real, t2: Tick, now2: real)
    requires OnTick(cfg, st, t, now).outcome.Sent?
    requires t2.symbol == t.symbol && SelectPrice(t2).Some?
    requires now2 - now >= cfg.throttleSeconds.GetOr(0.0)
    requires Thresholds(cfg, t.symbol).Some?
    requires Significant(SelectPrice(t).value, SelectPrice(t2).value, Thresholds(cfg, t.symbol).value.0, Thresholds(cfg, t.symbol).value.1)
    ensures var st1 := OnTick(cfg, st, t, now).state;
      && OnTick(cfg, st1, t2, now2).outcome.Sent?
      && OnTick(cfg, st1, t2, now2).outcome.alert.price == SelectPrice(t2).value
      && OnTick(cfg, st1, t2, now2).state == Commit(st1, t.symbol, SelectPrice(t2).value, now2)
  {
    var st1 := OnTick(cfg, st, t, now).state;
    assert st1.lastSentPrice[t.symbol] == SelectPrice(t).value;
    assert st1.lastSentTime[t.symbol] == now;
    assert !Throttled(cfg, st1, t2.symbol, now2);
  }

  /** A tick's fate and what it leaves for its own symbol depend only on what
      the state records about that symbol. */
  lemma OnTickLocal(cfg: Config, st1: State, st2: State, t: Tick, now: real)
    requires EntryOf(st1, t.symbol) == EntryOf(st2, t.symbol)
    ensures OnTick(cfg, st1, t, now).outcome == OnTick(cfg, st2, t, now).outcome
    ensures EntryOf(OnTick(cfg, st1, t, now).state, t.symbol) == EntryOf(OnTick(cfg, st2, t, now).state, t.symbol)
  {
    var sym := t.symbol;
    assert (sym in st1.lastSentPrice) == (sym in st2.lastSentPrice);
    assert sym in st1.lastSentPrice ==> st1.lastSentPrice[sym] == st2.lastSentPrice[sym];
    assert (sym in st1.lastSentTime) == (sym in st2.lastSentTime);
    assert sym in st1.lastSentTime ==> st1.lastSentTime[sym] == st2.lastSentTime[sym];
    if SelectPrice(t).Some? {
      var p := SelectPrice(t).value;
      assert PassesThresholds(cfg, st1, sym, p) == PassesThresholds(cfg, st2, sym, p);
      assert Throttled(cfg, st1, sym, now) == Throttled(cfg, st2, sym, now);
    }
  }

  // ---------- batches ----------

  /** A batch run after another, as one batch. */
  function Then(b1: Batch, b2: Batch): Batch {
    Batch(b2.state, b1.sent + b2.sent, b1.failed + b2.failed)
  }

  /** Handling `a + b` is handling `a` and then handling `b` from where `a` left off. */
  lemma {:induction false} BatchSplit(cfg: Config, st: State, a: seq<Arrival>, b: seq<Arrival>)
    ensures RunBatch(cfg, st, a + b) == Then(RunBatch(cfg, st, a), RunBatch(cfg, RunBatch(cfg, st, a).state, b))
    decreases |b|
  {
    if |b| == 0 {
      assert a + b == a;
    } else {
      var x := b[|b| - 1];
      var b' := b[..|b| - 1];
      assert (a + b)[..|a + b| - 1] == a + b';
      assert (a + b)[|a + b| - 1] == x;
      BatchSplit(cfg, st, a, b');
      var left := RunBatch(cfg, st, a);
      var right := RunBatch(cfg, left.state, b');
      var step := OnTick(cfg, right.state, x.tick, x.now);
      var e: seq<Alert> := if step.outcome.Sent? then [step.outcome.alert] else [];
      var f: seq<Symbol> := if step.outcome.Failed? then [x.tick.symbol] else [];
      assert RunBatch(cfg, left.state, b) == Batch(step.state, right.sent + e, right.failed + f);
      assert RunBatch(cfg, st, a + b) == Batch(step.state, (left.sent + right.sent) + e, (left.failed + right.failed) + f);
      assert (left.sent + right.sent) + e == left.sent + (right.sent + e);
      assert (left.failed + right.failed) + f == left.failed + (right.failed + f);
    }
  }

  /** A tick whose handling raises without touching the state does not stop
      the batch: the rest of the batch ends exactly as if it were absent, and
      only its symbol is added to the failures. */
  lemma FailingTickIsSkipped(cfg: Config, st: State, pre: seq<Arrival>, x: Arrival, post: seq<Arrival>)
    requires var mid := RunBatch(cfg, st, pre).state;
      OnTick(cfg, mid, x.tick, x.now).outcome.Failed? && OnTick(cfg, mid, x.tick, x.now).state == mid
    ensures RunBatch(cfg, st, pre + [x] + post).state == RunBatch(cfg, st, pre + post).state
    ensures RunBatch(cfg, st, pre + [x] + post).sent == RunBatch(cfg, st, pre + post).sent
    ensures RunBatch(cfg, st, pre + [x] + post).failed
         == RunBatch(cfg, st, pre).failed + [x.tick.symbol] + RunBatch(cfg, RunBatch(cfg, st, pre).state, post).failed
  {
    var mid := RunBatch(cfg, st, pre);
    assert [x][..0] == [];
    var one := RunBatch(cfg, mid.state, [x]);
    var step := OnTick(cfg, mid.state, x.tick, x.now);
    assert RunBatch(cfg, mid.state, []) == Batch(mid.state, [], []);
    assert one == Absorb(Batch(mid.state, [], []), step, x.tick.symbol);
    assert one == Batch(mid.state, [], [x.tick.symbol]);
    BatchSplit(cfg, st, pre, [x]);
    var withX := RunBatch(cfg, st, pre + [x]);
    assert withX == Batch(mid.state, mid.sent + [], mid.failed + [x.tick.symbol]);
    assert withX.sent == mid.sent;
    var rest := RunBatch(cfg, mid.state, post);
    BatchSplit(cfg, st, pre + [x], post);
    BatchSplit(cfg, st, pre, post);
  }

  /** The same rejected (or priceless) tick handled any number of times leaves
      the state as it was and emits nothing. */
  lemma {:induction false} RepeatedRejectionIsInert(cfg: Config, st: State, a: Arrival, n: nat)
    requires OnTick(cfg, st, a.tick, a.now).outcome.Rejected? || OnTick(cfg, st, a.tick, a.now).outcome.Discarded?
    ensures RunBatch(cfg, st, seq(n, _ => a)) == Batch(st, [], [])
  {
    if n > 0 {
      RepeatedRejectionIsInert(cfg, st, a, n - 1);
      assert seq(n, _ => a)[..n - 1] == seq(n - 1, _ => a);
    }
  }

  /** The ticks of `arrivals` that are for symbol `s`, in order. */
  function OnlyFor(arrivals: seq<Arrival>, s: Symbol): (r: seq<Arrival>)
    ensures |r| <= |arrivals|
    ensures forall i :: 0 <= i < |r| ==> r[i].tick.symbol == s
  {
    if |arrivals| == 0 then []
    else
      var x := arrivals[|arrivals| - 1];
      OnlyFor(arrivals[..|arrivals| - 1], s) + (if x.tick.symbol == s then [x] else [])
  }

  /** The alerts of `alerts` that are for symbol `s`, in order. */
  function AlertsFor(alerts: seq<Alert>, s: Symbol): seq<Alert> {
    if |alerts| == 0 then []
    else
      var x := alerts[|alerts| - 1];
      AlertsFor(alerts[..|alerts| - 1], s) + (if x.symbol == s then [x] else [])
  }

  lemma {:induction false} AlertsForAppend(a: seq<Alert>, b: seq<Alert>, s: Symbol)
    ensures AlertsFor(a + b, s) == AlertsFor(a, s) + AlertsFor(b, s)
    decreases |b|
  {
    if |b| == 0 {
      assert a + b == a;
    } else {
      assert (a + b)[..|a + b| - 1] == a + b[..|b| - 1];
      AlertsForAppend(a, b[..|b| - 1], s);
    }
  }

  /** Symbols do not interfere: what a batch leaves and emits for symbol `s`
      is what the ticks for `s` alone would leave and emit, from any state
      that agrees on `s`. Ticks for other symbols, accepted, rejected or
      failing, play no part. */
  lemma {:induction false} BatchPerSymbol(cfg: Config, st1: State, st2: State, arrivals: seq<Arrival>, s: Symbol)
    requires EntryOf(st1, s) == EntryOf(st2, s)
    ensures EntryOf(RunBatch(cfg, st1, arrivals).state, s) == EntryOf(RunBatch(cfg, st2, OnlyFor(arrivals, s)).state, s)
    ensures AlertsFor(RunBatch(cfg, st1, arrivals).sent, s) == AlertsFor(RunBatch(cfg, st2, OnlyFor(arrivals, s)).sent, s)
    decreases |arrivals|
  {
    if |arrivals| > 0 {
      var x := arrivals[|arrivals| - 1];
      var pre := arrivals[..|arrivals| - 1];
      BatchPerSymbol(cfg, st1, st2, pre, s);
      var b1 := RunBatch(cfg, st1, pre);
      assert RunBatch(cfg, st1, arrivals) == Absorb(b1, OnTick(cfg, b1.state, x.tick, x.now), x.tick.symbol);
      if x.tick.symbol == s {
        var only := OnlyFor(pre, s) + [x];
        assert OnlyFor(arrivals, s) == only;
        assert only[..|only| - 1] == OnlyFor(pre, s);
        var b2 := RunBatch(cfg, st2, OnlyFor(pre, s));
        assert RunBatch(cfg, st2, only) == Absorb(b2, OnTick(cfg, b2.state, x.tick, x.now), x.tick.symbol);
        SameSymbolStep(cfg, b1, b2, x);
      } else {
        assert OnlyFor(arrivals, s) == OnlyFor(pre, s);
        OtherSymbolStep(cfg, b1, x, s);
      }
    }
  }

  /** A tick for `s` absorbed into two batches that agree on `s` leaves them agreeing on `s`. */
  lemma SameSymbolStep(cfg: Config, b1: Batch, b2: Batch, x: Arrival)
    requires EntryOf(b1.state, x.tick.symbol) == EntryOf(b2.state, x.tick.symbol)
    requires AlertsFor(b1.sent, x.tick.symbol) == AlertsFor(b2.sent, x.tick.symbol)
    ensures var s := x.tick.symbol;
      var c1 := Absorb(b1, OnTick(cfg, b1.state, x.tick, x.now), s);
      var c2 := Absorb(b2, OnTick(cfg, b2.state, x.tick, x.now), s);
      EntryOf(c1.state, s) == EntryOf(c2.state, s) && AlertsFor(c1.sent, s) == AlertsFor(c2.sent, s)
  {
    var s := x.tick.symbol;
    OnTickLocal(cfg, b1.state, b2.state, x.tick, x.now);
    var step1 := OnTick(cfg, b1.state, x.tick, x.now);
    var step2 := OnTick(cfg, b2.state, x.tick, x.now);
    var e1: seq<Alert> := if step1.outcome.Sent? then [step1.outcome.alert] else [];
    var e2: seq<Alert> := if step2.outcome.Sent? then [step2.outcome.alert] else [];
    assert e1 == e2;
    AlertsForAppend(b1.sent, e1, s);
    AlertsForAppend(b2.sent, e2, s);
  }

  /** A tick for another symbol changes neither the entry of `s` nor its alerts. */
  lemma OtherSymbolStep(cfg: Config, b: Batch, x: Arrival, s: Symbol)
    requires x.tick.symbol != s
    ensures var c := Absorb(b, OnTick(cfg, b.state, x.tick, x.now), x.tick.symbol);
      EntryOf(c.state, s) == EntryOf(b.state, s) && AlertsFor(c.sent, s) == AlertsFor(b.sent, s)
  {
    var step := OnTick(cfg, b.state, x.tick, x.now);
    var e: seq<Alert> := if step.outcome.Sent? then [step.outcome.alert] else [];
    AlertsForAppend(b.sent, e, s);
    assert AlertsFor(e, s) == [] by {
      if |e| == 1 {
        assert e[..0] == [];
      }
    }
  }

  // ---------- a reference statement of the whole gate ----------

  /** Every symbol's record has thresholds that `float()` converts. */
  predicate WellConfigured(cfg: Config) {
    forall s :: s in cfg.symbols ==> Thresholds(cfg, s).Some?
  }

  /** Every tick is for a symbol that has a record, as when the feed only
      delivers the symbols the watcher subscribed to. */
  predicate AllKnown(cfg: Config, arrivals: seq<Arrival>) {
    forall i :: 0 <= i < |arrivals| ==> arrivals[i].tick.symbol in cfg.symbols
  }

  /** The thresholds in force for `sym`, reading missing ones as 0. */
  function Limits(cfg: Config, sym: Symbol): (real, real) {
    if sym in cfg.symbols && Thresholds(cfg, sym).Some? then Thresholds(cfg, sym).value else (0.0, 0.0)
  }

  /** The gate stated directly: a priced tick is committed when the symbol has
      no baseline or the move is significant, and the throttle window since
      the last sent time (0 if none) is closed or disabled. */
  function GateStep(cfg: Config, st: State, a: Arrival): State {
    match SelectPrice(a.tick)
    case None => st
    case Some(p) =>
      var sym := a.tick.symbol;
      var limits := Limits(cfg, sym);
      var significant := sym !in st.lastSentPrice || Significant(st.lastSentPrice[sym], p, limits.0, limits.1);
      var throttle := cfg.throttleSeconds.GetOr(0.0);
      var lastTime := if sym in st.lastSentTime then st.lastSentTime[sym] else 0.0;
      if significant && (throttle <= 0.0 || a.now - lastTime >= throttle) then Commit(st, sym, p, a.now) else st
  }

  function Reference(cfg: Config, st: State, arrivals: seq<Arrival>): State {
    if |arrivals| == 0 then st
    else GateStep(cfg, Reference(cfg, st, arrivals[..|arrivals| - 1]), arrivals[|arrivals| - 1])
  }

  /** When every symbol is known and configured, no tick fails, and the final
      state of a batch is the reference gate applied tick after tick. */
  lemma {:induction false} BatchMatchesReference(cfg: Config, st: State, arrivals: seq<Arrival>)
    requires WellConfigured(cfg) && AllKnown(cfg, arrivals)
    ensures RunBatch(cfg, st, arrivals).state == Reference(cfg, st, arrivals)
    ensures RunBatch(cfg, st, arrivals).failed == []
    decreases |arrivals|
  {
    if |arrivals| > 0 {
      var pre := arrivals[..|arrivals| - 1];
      var x := arrivals[|arrivals| - 1];
      assert AllKnown(cfg, pre) by {
        forall i | 0 <= i < |pre| ensures pre[i].tick.symbol in cfg.symbols {
          assert pre[i] == arrivals[i];
        }
      }
      BatchMatchesReference(cfg, st, pre);
      var b := RunBatch(cfg, st, pre);
      assert x.tick.symbol in cfg.symbols;
      var step := OnTick(cfg, b.state, x.tick, x.now);
      assert RunBatch(cfg, st, arrivals) == Absorb(b, step, x.tick.symbol);
      StepMatchesGate(cfg, b.state, x);
    }
  }

  /** One tick for a known, configured symbol never fails, and its new state
      is the reference gate's. */
  lemma StepMatchesGate(cfg: Config, st: State, x: Arrival)
    requires WellConfigured(cfg) && x.tick.symbol in cfg.symbols
    ensures !OnTick(cfg, st, x.tick, x.now).outcome.Failed?
    ensures OnTick(cfg, st, x.tick, x.now).state == GateStep(cfg, st, x)
  {
    assert Thresholds(cfg, x.tick.symbol).Some?;
  }

  // ---------- a worked scenario ----------

  /** Two ticks for a known symbol with zero thresholds and no throttle, in
      one batch: both are sent, in order, and the later price is kept. */
  lemma TwoTicksBothSent(cfg: Config, p1: real, p2: real)
    requires "AAPL" in cfg.symbols && Thresholds(cfg, "AAPL") == Some((0.0, 0.0))
    requires cfg.throttleSeconds == Some(0.0)
    ensures var b := RunBatch(cfg, Initial, [Arrival(Tick("AAPL", Price(p1), Missing), 0.0), Arrival(Tick("AAPL", Price(p2), Missing), 0.0)]);
      && |b.sent| == 2 && b.sent[0].price == p1 && b.sent[1].price == p2
      && b.state.lastSentPrice == map["AAPL" := p2]
  {
    var arr := [Arrival(Tick("AAPL", Price(p1), Missing), 0.0), Arrival(Tick("AAPL", Price(p2), Missing), 0.0)];
    assert arr[..1][..0] == [];
    assert arr[..1] == [arr[0]];
    var step1 := OnTick(cfg, Initial, arr[0].tick, 0.0);
    assert step1.outcome.Sent? && step1.outcome.alert.price == p1;
    assert step1.state == State(map["AAPL" := p1], map["AAPL" := 0.0]);
    var b1 := RunBatch(cfg, Initial, arr[..1]);
    assert RunBatch(cfg, Initial, arr[..1][..0]) == Batch(Initial, [], []);
    assert b1 == Absorb(Batch(Initial, [], []), step1, "AAPL");
    assert b1.state == step1.state && b1.sent == [step1.outcome.alert];
    assert PassesThresholds(cfg, b1.state, "AAPL", p2) == Ok(true);
    var step2 := OnTick(cfg, b1.state, arr[1].tick, 0.0);
    assert step2.outcome.Sent? && step2.outcome.alert.price == p2;
    assert RunBatch(cfg, Initial, arr) == Absorb(b1, step2, "AAPL");
  }
}

=== FILE: wrappers.dfy ===
/** Optional values and results with an error, as the rest of the model uses them
    in place of Python's `None` and raised exceptions. */
module Wrappers {

  /** A value that may be missing, like a Python `Optional`. */
  datatype Option<+T> = None | Some(value: T) {

    /** The wrapped value, or `default` when there is none (Python's `d.get(k, default)`). */
    function GetOr(default: T): T {
      match this
      case Some(v) => v
      case None => default
    }
  }

  /** Either a computed value or the error that the Python code would raise instead. */
  datatype Result<+T, +E> = Ok(value: T) | Err(error: E)
}
